=== FILE: README.md ===
# zkputer receipt pipeline, modelled in Dafny

This project models the core of zkputer, a service that turns a trade
claim into a receipt. A claim is "this order was placed" or "this trade was
executed" on one of four venues. The receipt ends PROVED or NON_PROVABLE
with a reason code. The modelled pipeline has these parts:

- a venue adapter acknowledges the order and collects an evidence bundle;
- the policy engine checks the bundle against the claim taxonomy and the
  source-precedence table;
- the adapter synthesises a statement;
- a prover produces proof metadata over the public inputs (claim hash,
  evidence root, venue, claim type);
- an off-chain verifier re-derives those inputs from the receipt and accepts
  it or not;
- every write re-signs the receipt's integrity block.

The conformance tool's structural checks of the policy and workload
documents, and its per-scenario digests, are modelled as well.

Modules, one per source file or concern:

| module | models |
|---|---|
| `Wrappers` | `Option`, `Result` and a pass/fail `Outcome` |
| `Json` | an abstract `serde_json::Value` and its accessors |
| `Hashing` | `hash_str` and `hash_json`. SHA-256 and JSON serialisation are opaque parameters; the `0x` + lowercase hex rendering is exact. |
| `Sorting` | Rust's string order, the sort used for evidence leaves and profiles, and the uniqueness of sorted arrangements |
| `Models` | the enums with their wire names, the receipt records, and `evidence_root` |
| `Policy` | `PolicyEngine::evaluate` and its document lookups |
| `Prover` | the SP1 placeholder prover and `no_proof_metadata` |
| `Verifier` | `OffchainVerifier::verify` |
| `AdapterBase` | the default `build_statement` |
| `Synthetic` | the synthetic venue adapter |
| `Adapters` | dispatch over registered adapters, and the venue-to-adapter map the engine builds |
| `Engine` | receipt construction, the integrity block, and `process_receipt_task` as a pure function that also records which stages it reached |
| `Store` | the receipt store as a map: `submit`, `get_receipt`, and running the receipt task |
| `Scenarios` | the engine as the integration tests wire it, and the outcomes those tests expect, stated for all requests of the shape the tests use |
| `Conformance` | `validate_claim_taxonomy` and `validate_source_precedence` |
| `Workloads` | `validate_workloads_and_digests` and `sha256_json` |

Some inputs are parameters of the model rather than computed:

- the wall clock (`now_iso`), through `now`, `TaskClock` and `CollectionClock`;
- the receipt id (`new_receipt_id`);
- SHA-256 and serde serialisation, through `Hashing.Hasher`;
- the two policy documents, as `Json.Value`.

Adapters and provers other than the shipped ones are given by their
operations: `Adapters.CustomAdapter` and `Prover.CustomBackend`.

## Model

| member | source | states |
|---|---|---|
| Models.ParseVenue | src/models.rs:8-15 | A string parses to a venue exactly when it is that venue's lowercase slug, so slugs are injective. |
| Models.ParseClaimType | src/models.rs:17-22 | A string parses to a claim type exactly when it is that type's variant name. |
| Models.ParseReason | src/models.rs:33-43 | A string parses to a reason exactly when it is that reason's wire name. |
| Models.StatusNameInjective | src/models.rs:24-31 | Distinct statuses serialise to distinct names. |
| Models.EvidenceRoot | src/models.rs:80-86 | The evidence root has the printed hash shape. |
| Models.EvidenceRootIsHashOfSortedLeaves | src/models.rs:81-85 | The evidence root is `hash_json` of `{"leaves": leaves}` for any sorted arrangement `leaves` of the items' artifact hashes. |
| Models.EvidenceRootDependsOnlyOnHashes | src/models.rs:82-84 | Bundles with the same multiset of artifact hashes have the same root, whatever their other item fields. |
| Models.EvidenceRootPermutationInvariant | src/models.rs:80-86 | Permuting the items leaves the evidence root unchanged. |
| Sorting.Sort | src/models.rs:83 | The leaf sort returns a sorted permutation of its input. |
| Sorting.SortedUnique | src/models.rs:83 | Two sorted sequences with the same multiset are equal: a multiset has one sorted arrangement. |
| Sorting.SortPermutationInvariant | src/models.rs:82-84 | Inputs with the same multiset sort to the same sequence. |
| Sorting.SortedDistinct | src/bin/conformance.rs:163-183 | The `HashSet`-then-sort profile is sorted, has no duplicates, and has exactly the input's members. |
| Sorting.SortedDistinctMembersOnly | src/bin/conformance.rs:163-183 | The sorted distinct profile depends only on which tags occur, not on their order or how often they repeat. |
| Hashing.HexEncode | src/models.rs:194-198 | Hex encoding gives two lowercase hex digits per byte. |
| Hashing.HexRoundTrip | src/models.rs:194-198 | Decoding the hex encoding gives the digest bytes back. |
| Hashing.HashStr | src/models.rs:194-198 | `hash_str` is "0x" and 64 lowercase hex digits that decode to the SHA-256 of the input. |
| Hashing.HashJson | src/models.rs:200-203 | `hash_json` is `hash_str` of the serialised value, or of "{}" when serialisation fails. |
| Hashing.ZeroHashIsHashString | src/prover.rs:46-47 | The all-zero placeholder hash has the printed hash shape. |
| Policy.SourcePrecedenceVersion | src/policy.rs:33-39 | The version is the document's `version` string, or "unknown" when it is absent or not a string. |
| Policy.RequiredTagsForClaim | src/policy.rs:99-115 | The required tags are the string entries of the claim type's tag list, in document order with repeats, and none when the path is missing. |
| Policy.PreferredSources | src/policy.rs:117-139 | The preferred kinds are the string entries of the venue's list for the claim, in document order, and none when the path is missing. |
| Json.StringsAppend | src/policy.rs:109-113 | Keeping the string entries commutes with concatenation, so they stay in array order with repeats. |
| Json.StringsSingleton | src/policy.rs:109-113 | A single entry is kept exactly when it is a string. |
| Policy.MissingTags | src/policy.rs:66-70 | The missing tags are the required tags not observed, with each one's multiplicity kept. |
| Policy.MissingTagsAppend | src/policy.rs:66-70 | Computing missing tags commutes with concatenation, so they come out in taxonomy order. |
| Policy.AnyObserved | src/policy.rs:81 | The `any` check is true iff some preferred kind is among the observed kinds. |
| Policy.AnyObservedIsSourceAccepted | src/policy.rs:79-90 | The source-precedence rejection holds iff the list is non-empty and no item's source kind is in it. |
| Policy.MissingTagsEmptyIffPresent | src/policy.rs:66-77 | No tag is missing iff every required tag was observed. |
| Policy.Evaluate | src/policy.rs:49-97 | `ok` iff there are no conflicts, some items, all required tags observed, and an acceptable source. The first failing check decides the reason and the details. Accepting means no reason and empty details. |
| Policy.ConflictDominates | src/policy.rs:50-56 | Bundles with the same non-empty conflict list get the same rejection, whatever their items, tags and sources. |
| Policy.RejectionReasons | src/policy.rs:49-97 | The policy rejects only with EVIDENCE_CONFLICT, EVIDENCE_MISSING or SOURCE_UNAVAILABLE. |
| Prover.Sp1Prove | src/prover.rs:21-37 | The SP1 prover never fails, reports SP1 and offchain mode, and binds `hash_json` of the public inputs. The artifact ref is "boundless://sp1/" plus that hash. The verifier-key hash is `hash_json` of the fixed SP1 key object, and the circuit id, circuit version and key id are the shipped constants. |
| Prover.NoProofMetadata | src/prover.rs:40-52 | The no-proof metadata has backend NONE, all-zero hashes, no artifact references and offchain mode. |
| Verifier.Verify | src/verifier.rs:7-31 | Rejects unless PROVED and backend not NONE. Otherwise accepts iff the hash of the recomputed public inputs equals the recorded one. |
| AdapterBase.DefaultBuildStatement | src/adapters/base.rs:19-43 | Never fails, is non-empty, and ignores the bundle. Gives the acceptance sentence for ORDER_PLACED and the execution sentence otherwise, with "UNKNOWN" for a missing execution ref. |
| AdapterBase.ExecutionStatementBindsReference | src/adapters/base.rs:33-41 | Execution statements for different execution refs differ. |
| Synthetic.AcceptanceSourceKind | src/adapters/synthetic.rs:29-34 | Hyperliquid is attested by a signed venue attestation; every other venue by canonical chain state. |
| Synthetic.Acknowledge | src/adapters/synthetic.rs:42-58 | The acknowledgement always succeeds and echoes the order ref. Its artifact ref is slug + "://ack/" + order ref, and its hash binds venue, order and time. |
| Synthetic.AckRefIdentifiesOrder | src/adapters/synthetic.rs:44 | Two acknowledgements with the same artifact reference are for the same venue and the same order reference. |
| Synthetic.SimulatesConflict | src/adapters/synthetic.rs:68-70 | A conflict is simulated iff `payload.simulate_conflict` is the boolean true. |
| Synthetic.RemovedTags | src/adapters/synthetic.rs:125-129 | The removed tags are exactly the string entries of `payload.missing_tags`, and none otherwise. |
| Synthetic.CollectEvidence | src/adapters/synthetic.rs:60-137 | Always succeeds with conflicts [source_value_mismatch] iff a conflict is simulated. The primary item reuses the ack's ref, hash and time; the shadow item is `venue_api_unsigned`. An execution item, the execution tags and finality appear iff an execution is reported. The observed tags are the order (and execution) tags minus the removed ones. Each item is fully fixed: its source id, artifact ref, artifact hash (`hash_json` of the venue/order/execution artifact), observation time and tags. |
| Synthetic.ItemsIgnorePayload | src/adapters/synthetic.rs:125-129 | The payload never changes the items or the finality observation, only the tag set and the conflicts. |
| Adapters.AdapterIndex | src/engine.rs:33 | The adapter chosen for a venue is the last one registered for it, and there is none iff no adapter has that venue. |
| Engine.NewEngine | src/engine.rs:27-44 | A new engine signs as "zkputer-dev-signer", uses version "v0.1.0", and selects adapters exactly as registered. |
| Engine.BuildIntegrity | src/engine.rs:346-374 | The schema hash binds the version. The receipt hash binds status, claim hash, evidence root and proof hash. The signature binds the signer and the receipt hash. All three have the hash shape. |
| Engine.SignatureDependsOnSignerAndReceiptHash | src/engine.rs:364-367 | With one signer, equal receipt hashes give equal signatures, whatever else differs. |
| Engine.ReceiptHashPreimageBindsStatus | src/engine.rs:358-363 | Different statuses give different receipt-hash preimages. |
| Engine.NewPendingReceipt | src/engine.rs:95-149 | A pending receipt has status PENDING, no non-provable record, the no-proof metadata, the pending statement, and the request's subject. Its policy context is the policy engine's policy id, finality rule id and source-precedence version. It has no evidence and the empty-root hash, `created_at == updated_at`, a consistent integrity block, and fails verification. |
| Engine.MarkNonProvable | src/engine.rs:323-344 | Sets NON_PROVABLE with the given reason and details and drops the proof. Keeps id, version, subject, policy, claim, provenance and `created_at`; only `updated_at` changes in the timing. Re-signs consistently, and the result fails verification. |
| Engine.BuildProvedReceipt | src/engine.rs:290-321 | Sets PROVED with no non-provable record. Installs the new claim hash and statement, the bundle's root and items, the proof, and the bundle's finality. Keeps the identity fields and re-signs consistently. |
| Engine.PublicInputsMatchVerifier | src/engine.rs:252-257 | The public inputs the engine proves are those the verifier recomputes from the receipt it builds. |
| Engine.RunProofStages | src/engine.rs:236-287 | A prover error ends PROOF_FAILURE with the prover's message, before the verifier, and the written receipt is exactly the incoming receipt marked that way (its claim, provenance and creation time unchanged). On a proof, the receipt is built with the new claim hash, statement, evidence and proof. It is written as built when the verifier accepts it, and otherwise marked PROOF_FAILURE with the fixed detail. Every write is terminal, consistent, keeps identity, and is PROVED iff it verifies. |
| Engine.RunPolicyStages | src/engine.rs:208-234 | A policy rejection stops at the policy with its reason (POLICY_VIOLATION if none) and details. A statement error ends POLICY_VIOLATION with its message. Both write exactly the incoming receipt marked with that reason, so its claim and provenance stay as they were. An accepted bundle with a built statement always goes on to the proof stages, whose receipt is written. |
| Engine.RunAdapterStages | src/engine.rs:178-206 | An acknowledgement or collection error ends SOURCE_UNAVAILABLE with its message, and no later stage runs. The written receipt is exactly the incoming receipt marked that way. Otherwise the policy stages decide. |
| Engine.ProcessReceipt | src/engine.rs:152-288 | With no adapter for the venue, the receipt task ends UNSUPPORTED_VENUE_CLAIM and calls no stage, writing exactly the pending receipt marked that way. Otherwise it runs the stages with the selected adapter. Every write is terminal (never PENDING or INVALIDATED) and PROVED iff it verifies. |
| Engine.Sp1ProofVerifies | src/engine.rs:252-287 | With the shipped prover, the proof stages always reach the verifier and end PROVED. |
| Engine.ShippedProverAlwaysProves | src/engine.rs:259-287 | Once the receipt task reaches the shipped prover, the receipt ends PROVED. |
| Engine.AcceptedBundleProves | src/engine.rs:208-287 | A policy-accepted bundle with a synthesised statement ends PROVED under the shipped prover. |
| Engine.ProverReachedOnlyAfterAcceptance | src/engine.rs:166-259 | The prover is reached only after an adapter was found, acknowledgement and collection succeeded, the policy accepted, and a statement was built. |
| Engine.PolicyRejectionStopsPipeline | src/engine.rs:208-219 | A policy rejection ends NON_PROVABLE with the policy's reason and details; statement synthesis and proving never run. |
| Engine.ShippedProverNeverFailsProof | src/engine.rs:259-287 | With the shipped prover, no receipt ends PROOF_FAILURE. |
| Store.Submit | src/engine.rs:46-79 | Submit stores exactly the receipt `new_pending_receipt` builds for the request (PENDING, placeholder claim, creation time now, consistent integrity) under the returned id, and leaves every other entry alone. |
| Store.GetReceipt | src/engine.rs:81-83 | A receipt is found iff its id is stored, and it is the stored one. |
| Store.RunTask | src/engine.rs:152-288 | An unknown id is a no-op. Otherwise exactly that entry is replaced by the receipt the receipt task computes from the stored one, which is a terminal write. |
| Store.SubmitThenRun | src/engine.rs:46-79 | Submit then run leaves a PROVED or NON_PROVABLE receipt under the id, with the request's subject and the submit time as `created_at`; never PROOF_FAILURE under the shipped prover. |
| Scenarios.EveryVenueServed | tests/rust_mvp.rs:10-23 | The test engine serves every venue with its own synthetic adapter. |
| Scenarios.ConflictingEvidenceNonProvable | tests/rust_mvp.rs:75-102 | A request simulating a conflict ends EVIDENCE_CONFLICT before any statement or proof. |
| Scenarios.SyntheticStages | tests/rust_mvp.rs:10-23 | The test engine always passes the adapter stages and hands the synthetic bundle to the policy. |
| Scenarios.MissingExecutionTagRejected | tests/rust_mvp.rs:46-73 | Without an execution ref, a taxonomy requiring an execution tag rejects the synthetic bundle as EVIDENCE_MISSING. |
| Scenarios.MissingExecutionRefNonProvable | tests/rust_mvp.rs:46-73 | Under such a taxonomy, a TRADE_EXECUTED request without an execution ref ends EVIDENCE_MISSING and never reaches the prover. |
| Scenarios.OrderPlacedAccepted | tests/rust_mvp.rs:26-44 | The synthetic ORDER_PLACED bundle passes the policy when the required tags are unstripped order tags and the preference list is empty or names a reported source kind. |
| Scenarios.OrderPlacedProves | tests/rust_mvp.rs:26-44 | Under those conditions an ORDER_PLACED request without a simulated conflict ends PROVED. |
| Conformance.RequiredReasonCodesAreTheReasons | src/bin/conformance.rs:64-76 | The eight required reason codes are exactly the wire names of the reasons. |
| Conformance.VenueSlugsAreTheVenues | src/bin/conformance.rs:91 | The four checked venues are exactly the venue slugs. |
| Conformance.ListsRequiredCodesIffAllReasons | src/bin/conformance.rs:57-81 | The code list covers the required codes iff it names every reason; extra codes do not matter. |
| Conformance.ValidateClaimTaxonomy | src/bin/conformance.rs:45-83 | Passes iff `claim_types` is an object naming both claim types and the code list names every reason. Each failure carries the message of the first failing check: missing `claim_types`, a missing claim type (ORDER_PLACED checked first), a missing code list, or a missing required code. |
| Conformance.CheckVenues | src/bin/conformance.rs:91-101 | Passes iff every listed venue is an object with both preference lists. Otherwise the first unconfigured venue is reported, as a missing venue policy or missing preference lists. |
| Conformance.ValidateSourcePrecedence | src/bin/conformance.rs:85-103 | Passes iff `venues` configures all four venues. A missing `venues` fails with its message; otherwise the first unconfigured venue, in the order hyperliquid, base, solana, polymarket, is reported with its message. |
| Workloads.ScenarioId | src/bin/conformance.rs:138-142 | An id is read iff the scenario's `id` is a string, and it is that string. |
| Workloads.RequiredTagSet | src/bin/conformance.rs:114-129 | The required set exists iff the taxonomy names the claim type, and holds exactly its string tags. |
| Workloads.Sha256Json | src/bin/conformance.rs:197-202 | Fails iff serialisation fails. Otherwise gives 64 lowercase hex digits that decode to the SHA-256 of the JSON text. |
| Workloads.CheckProfile | src/bin/conformance.rs:163-192 | Passes only if the profile covers the required tags, and then gives the digest of the scenario's digest input. |
| Workloads.CheckScenarioAdmits | src/bin/conformance.rs:147-192 | A scenario passes its checks iff its venue and claim type are known and its profile covers the required tags, and then its digest input is hashed. |
| Workloads.SameTagsSameDigestInput | src/bin/conformance.rs:163-190 | Profiles with the same tags, in any order and with any repetition, give the same digest input. |
| Workloads.SameTagsSameAdmission | src/bin/conformance.rs:163-180 | Profiles with the same tags are admitted alike. |
| Workloads.DigestIgnoresProfileOrder | src/bin/conformance.rs:163-192 | Profiles with the same tags pass alike and get the same digest. |
| Workloads.DigestScenarios | src/bin/conformance.rs:137-193 | Succeeds iff every scenario has an id and passes, with no id used twice. Then gives one (id, digest) pair per scenario, in input order, with distinct ids. |
| Workloads.ValidateWorkloadsAndDigests | src/bin/conformance.rs:105-195 | Succeeds iff the scenarios are a non-empty array, the taxonomy has claim types, and every scenario is admitted under a unique id. Then gives each scenario's id and the digest of its sorted, deduplicated digest input, in order. Missing scenarios fail with their message. |

## Left out

- Concurrency: `submit` spawning the receipt task, the `Mutex`-guarded store and task registry, and `wait_for_receipt` polling with a timeout. Running the receipt task is an explicit step (`Store.RunTask`).
- Randomness and the clock: `new_receipt_id` and `now_iso` become parameters, so id uniqueness is not modelled.
- SHA-256 and serde_json byte serialisation are opaque parameters. Collision resistance is not assumed, so lemmas about hashes compare their preimages (`Engine.ReceiptHashPreimageBindsStatus`).
- Loading the policy documents from disk, in `PolicyEngine::new` and both `read_json` functions, and the conformance tool's `main`. The documents are inputs.
- The `backend_name` method of the prover trait: the engine never calls it.
- `src/bin/mcp_server.rs`, `src/bin/demo.rs` and `src/lib.rs`: JSON-RPC I/O, a printing driver and re-exports.
- JSON numbers are integers only; `as_u64` is modelled as "a non-negative integer below 2^64".
- The iteration order of a `HashSet`/`HashMap` is not observable in the model. `Sorting.Dedup` fixes one order, and the lemmas show that the sorted results do not depend on it.
- Verifier.Verify: purity and determinism are not stated as a separate lemma, because every Dafny function is deterministic.
- Workloads.DigestIgnoresProfileOrder: states that the two results are equal only when they succeed. The error messages of failing scenarios are not compared.
- Workloads.ValidateWorkloadsAndDigests: gives the exact error text only for missing or empty scenarios. For the other failures it states that the result is an error, not which message.
- Workloads.Sha256Json: the error message for a serialisation failure is a stand-in; serde_json's own message is not modelled.
- Engine.ReceiptHashPreimageBindsStatus: states that the hashed JSON values differ, not the hashes, since collision resistance is not assumed.
- Scenarios.MissingExecutionRefNonProvable: the taxonomy file the integration test loads is not part of this model. The lemma assumes the taxonomy requires an execution tag for TRADE_EXECUTED.
- Scenarios.OrderPlacedProves: likewise states the policy conditions under which the test's ORDER_PLACED request proves, instead of a concrete taxonomy.

=== FILE: adapter_base.dfy ===
/** The shared part of the venue adapter interface of src/adapters/base.rs:
    the default statement synthesis every adapter inherits. */
module AdapterBase {
  import opened Wrappers
  import opened Models

  /** The default `build_statement`: an acceptance sentence for ORDER_PLACED,
      an execution sentence otherwise ("UNKNOWN" standing in for a missing
      execution reference). The bundle is not consulted. */
  function DefaultBuildStatement(request: ProofRequest, ack: ExecutionAck, bundle: EvidenceBundle): (r: Result<string, string>)
    ensures r.Ok? && |r.value| > 0
    ensures request.claimType == OrderPlaced ==>
              r.value == "Order " + request.orderRef + " for account " + request.accountRef
                         + " was accepted on venue " + VenueSlug(request.venue) + " at " + ack.acceptedAt + "."
    ensures request.claimType != OrderPlaced ==>
              r.value == "Order " + request.orderRef + " for account " + request.accountRef
                         + " was executed on venue " + VenueSlug(request.venue)
                         + " with execution ref " + request.executionRef.GetOr("UNKNOWN") + "."
  {
    var prefix := "Order " + request.orderRef + " for account " + request.accountRef;
    if request.claimType == OrderPlaced then
      Ok(prefix + " was accepted on venue " + VenueSlug(request.venue) + " at " + ack.acceptedAt + ".")
    else
      Ok(prefix + " was executed on venue " + VenueSlug(request.venue)
         + " with execution ref " + request.executionRef.GetOr("UNKNOWN") + ".")
  }

  /** Two requests that differ only in their execution reference get
      different execution statements: the statement binds the reference.
      (Only for ORDER_PLACED is the reference left out.) */
  lemma ExecutionStatementBindsReference(request: ProofRequest, ack: ExecutionAck, b: EvidenceBundle, e1: string, e2: string)
    requires request.claimType == TradeExecuted
    requires e1 != e2
    ensures DefaultBuildStatement(request.(executionRef := Some(e1)), ack, b)
         != DefaultBuildStatement(request.(executionRef := Some(e2)), ack, b)
  {
    var prefix := "Order " + request.orderRef + " for account " + request.accountRef
                  + " was executed on venue " + VenueSlug(request.venue) + " with execution ref ";
    var s1 := DefaultBuildStatement(request.(executionRef := Some(e1)), ack, b).value;
    var s2 := DefaultBuildStatement(request.(executionRef := Some(e2)), ack, b).value;
    assert s1 == prefix + e1 + ".";
    assert s2 == prefix + e2 + ".";
    if |e1| == |e2| {
      var k :| 0 <= k < |e1| && e1[k] != e2[k];
      assert s1[|prefix| + k] == e1[k];
      assert s2[|prefix| + k] == e2[k];
    }
  }
}

=== FILE: adapters.dfy ===
/** Venue adapters as the engine sees them (the `VenueAdapter` trait of
    src/adapters/base.rs): the synthetic adapter, or any other adapter given
    by its operations. */
module Adapters {
  import opened Wrappers
  import Hashing
  import opened Models
  import AdapterBase
  import Synthetic

  /** A registered adapter. An adapter other than the synthetic one is given
      by its venue and its operations; `buildStatement` is `None` when it
      keeps the default statement synthesis. */
  datatype Adapter =
    | SyntheticAdapter(venue: Venue)
    | CustomAdapter(
        venue: Venue,
        acknowledge: ProofRequest -> Result<ExecutionAck, string>,
        collectEvidence: (ProofRequest, ExecutionAck) -> Result<EvidenceBundle, string>,
        buildStatement: Option<(ProofRequest, ExecutionAck, EvidenceBundle) -> Result<string, string>>)

  function Acknowledge(h: Hashing.Hasher, a: Adapter, request: ProofRequest, acceptedAt: string): Result<ExecutionAck, string> {
    match a
    case SyntheticAdapter(venue) => Synthetic.Acknowledge(h, venue, request, acceptedAt)
    case CustomAdapter(_, acknowledge, _, _) => acknowledge(request)
  }

  function CollectEvidence(h: Hashing.Hasher, a: Adapter, request: ProofRequest, ack: ExecutionAck,
                           clock: Synthetic.CollectionClock): Result<EvidenceBundle, string> {
    match a
    case SyntheticAdapter(venue) => Synthetic.CollectEvidence(h, venue, request, ack, clock)
    case CustomAdapter(_, _, collect, _) => collect(request, ack)
  }

  function BuildStatement(a: Adapter, request: ProofRequest, ack: ExecutionAck, bundle: EvidenceBundle): Result<string, string> {
    match a
    case CustomAdapter(_, _, _, Some(build)) => build(request, ack, bundle)
    case _ => AdapterBase.DefaultBuildStatement(request, ack, bundle)
  }

  /** The position of the adapter the engine uses for a venue: collecting
      `(venue, adapter)` pairs into a map keeps the last adapter registered
      for each venue. */
  function AdapterIndex(adapters: seq<Adapter>, v: Venue): (r: Option<nat>)
    ensures r.None? <==> forall i :: 0 <= i < |adapters| ==> adapters[i].venue != v
    ensures r.Some? ==>
              && r.value < |adapters|
              && adapters[r.value].venue == v
              && forall j :: r.value < j < |adapters| ==> adapters[j].venue != v
    decreases |adapters|
  {
    if |adapters| == 0 then
      None
    else if adapters[|adapters| - 1].venue == v then
      Some(|adapters| - 1)
    else
      AdapterIndex(adapters[..|adapters| - 1], v)
  }
}

=== FILE: conformance.dfy ===
/** The structural checks of src/bin/conformance.rs over already-parsed
    policy and workload documents, and the deterministic per-scenario
    digests. Reading the files and printing are not modelled. */
module Conformance {
  import opened Wrappers
  import opened Json
  import Hashing
  import opened Models
  import Sorting

  const RequiredReasonCodes: seq<string> := [
    "EVIDENCE_MISSING", "EVIDENCE_CONFLICT", "SOURCE_UNAVAILABLE", "FINALITY_TIMEOUT",
    "POLICY_VIOLATION", "SCHEMA_INVALID", "UNSUPPORTED_VENUE_CLAIM", "PROOF_FAILURE"]

  const VenueSlugs: seq<string> := ["hyperliquid", "base", "solana", "polymarket"]

  /** The required reason codes are exactly the wire names of the reasons. */
  lemma RequiredReasonCodesAreTheReasons()
    ensures forall s :: s in RequiredReasonCodes <==> ParseReason(s).Some?
  {
  }

  /** The venue slugs checked are exactly the slugs of the venues. */
  lemma VenueSlugsAreTheVenues()
    ensures forall s :: s in VenueSlugs <==> ParseVenue(s).Some?
  {
  }

  // ---------------------------------------------------------------------------
  // Claim taxonomy

  /** A taxonomy names every claim type and lists every reason code. */
  predicate TaxonomyWellFormed(data: Value) {
    && data.Get("claim_types").Some? && data.Get("claim_types").value.Object?
    && (forall c: ClaimType :: ClaimTypeName(c) in data.Get("claim_types").value.fields)
    && data.Get("non_provable_reason_codes").Some? && data.Get("non_provable_reason_codes").value.Array?
    && (forall r: NonProvableReason :: String(ReasonName(r)) in data.Get("non_provable_reason_codes").value.elems)
  }

  predicate ListsRequiredCodes(codes: seq<Value>) {
    forall c :: c in RequiredReasonCodes ==> c in Strings(codes)
  }

  lemma ListsRequiredCodesIffAllReasons(codes: seq<Value>)
    ensures ListsRequiredCodes(codes) <==> forall r: NonProvableReason :: String(ReasonName(r)) in codes
  {
    if ListsRequiredCodes(codes) {
      forall r: NonProvableReason
        ensures String(ReasonName(r)) in codes
      {
        assert ReasonName(r) in RequiredReasonCodes;
      }
    }
    if forall r: NonProvableReason :: String(ReasonName(r)) in codes {
      forall c | c in RequiredReasonCodes
        ensures c in Strings(codes)
      {
        RequiredReasonCodesAreTheReasons();
        assert ReasonName(ParseReason(c).value) == c;
      }
    }
  }

  /** `validate_claim_taxonomy`. */
  function ValidateClaimTaxonomy(data: Value): (r: Outcome<string>)
    ensures r.Pass? <==> TaxonomyWellFormed(data)
    ensures !(data.Get("claim_types").Some? && data.Get("claim_types").value.Object?) ==>
              r == Fail("claim-taxonomy: missing claim_types")
    ensures data.Get("claim_types").Some? && data.Get("claim_types").value.Object? ==>
              var claimTypes := data.Get("claim_types").value.fields;
              var codes := data.Get("non_provable_reason_codes");
              && ("ORDER_PLACED" !in claimTypes ==> r == Fail("claim-taxonomy: missing claim type ORDER_PLACED"))
              && ("ORDER_PLACED" in claimTypes && "TRADE_EXECUTED" !in claimTypes ==>
                    r == Fail("claim-taxonomy: missing claim type TRADE_EXECUTED"))
              && ("ORDER_PLACED" in claimTypes && "TRADE_EXECUTED" in claimTypes && !(codes.Some? && codes.value.Array?) ==>
                    r == Fail("claim-taxonomy: missing non_provable_reason_codes"))
              && ("ORDER_PLACED" in claimTypes && "TRADE_EXECUTED" in claimTypes && codes.Some? && codes.value.Array?
                  && !ListsRequiredCodes(codes.value.elems) ==>
                    r == Fail("claim-taxonomy: missing required non_provable_reason_codes"))
  {
    match data.Get("claim_types")
    case Some(Object(claimTypes)) =>
      if "ORDER_PLACED" !in claimTypes then
        assert ClaimTypeName(OrderPlaced) !in claimTypes;
        Fail("claim-taxonomy: missing claim type ORDER_PLACED")
      else if "TRADE_EXECUTED" !in claimTypes then
        assert ClaimTypeName(TradeExecuted) !in claimTypes;
        Fail("claim-taxonomy: missing claim type TRADE_EXECUTED")
      else
        assert forall c: ClaimType :: ClaimTypeName(c) in claimTypes;
        (match data.Get("non_provable_reason_codes")
         case Some(Array(codes)) =>
           ListsRequiredCodesIffAllReasons(codes);
           if ListsRequiredCodes(codes) then Pass
           else Fail("claim-taxonomy: missing required non_provable_reason_codes")
         case _ =>
           Fail("claim-taxonomy: missing non_provable_reason_codes"))
    case _ =>
      Fail("claim-taxonomy: missing claim_types")
  }

  // ---------------------------------------------------------------------------
  // Source precedence

  /** The venue's entry is an object holding both preference lists. */
  predicate VenueConfigured(venues: map<string, Value>, slug: string) {
    && slug in venues && venues[slug].Object?
    && "order_placed_sources_preferred" in venues[slug].fields
    && "trade_executed_sources_preferred" in venues[slug].fields
  }

  /** A source-precedence document configures every venue. */
  predicate SourcePrecedenceWellFormed(data: Value) {
    && data.Get("venues").Some? && data.Get("venues").value.Object?
    && forall v: Venue :: VenueConfigured(data.Get("venues").value.fields, VenueSlug(v))
  }

  /** The message for an unconfigured venue: its entry is missing or not an
      object, or it lacks a preference list. */
  function VenueFailure(venues: map<string, Value>, slug: string): string {
    if slug !in venues || !venues[slug].Object? then
      "source-precedence: missing venue policy " + slug
    else
      "source-precedence: missing source preference lists for " + slug
  }

  /** Checks the venues in the order given; the first unconfigured one is reported. */
  function CheckVenues(venues: map<string, Value>, slugs: seq<string>): (r: Outcome<string>)
    ensures r.Pass? <==> forall s :: s in slugs ==> VenueConfigured(venues, s)
    ensures forall k :: 0 <= k < |slugs| && !VenueConfigured(venues, slugs[k])
                        && (forall j :: 0 <= j < k ==> VenueConfigured(venues, slugs[j])) ==>
              r == Fail(VenueFailure(venues, slugs[k]))
  {
    if |slugs| == 0 then
      Pass
    else
      var slug := slugs[0];
      assert slug in slugs;
      if !VenueConfigured(venues, slug) then
        Fail(VenueFailure(venues, slug))
      else
        assert slugs == [slug] + slugs[1..];
        CheckVenues(venues, slugs[1..])
  }

  /** `validate_source_precedence`. */
  function ValidateSourcePrecedence(data: Value): (r: Outcome<string>)
    ensures r.Pass? <==> SourcePrecedenceWellFormed(data)
    ensures !(data.Get("venues").Some? && data.Get("venues").value.Object?) ==>
              r == Fail("source-precedence: missing venues")
    ensures data.Get("venues").Some? && data.Get("venues").value.Object? ==>
              var venues := data.Get("venues").value.fields;
              forall k :: 0 <= k < |VenueSlugs| && !VenueConfigured(venues, VenueSlugs[k])
                          && (forall j :: 0 <= j < k ==> VenueConfigured(venues, VenueSlugs[j])) ==>
                r == Fail(VenueFailure(venues, VenueSlugs[k]))
  {
    match data.Get("venues")
    case Some(Object(venues)) =>
      VenueSlugsAreTheVenues();
      assert forall v: Venue :: VenueSlug(v) in VenueSlugs;
      assert forall s :: s in VenueSlugs ==> s == VenueSlug(ParseVenue(s).value);
      CheckVenues(venues, VenueSlugs)
    case _ =>
      Fail("source-precedence: missing venues")
  }
}

=== FILE: engine.dfy ===
/** The receipt engine of src/engine.rs: receipt construction, the integrity
    block, and the background task that carries a pending receipt to a
    terminal status, modelled as a pure function of the engine and the
    request. The model records which stages it reached, so the contracts can
    say which later stages were never consulted. */
module Engine {
  import opened Wrappers
  import Json
  import Hashing
  import opened Models
  import Policy
  import Prover
  import Verifier
  import Synthetic
  import opened Adapters

  const DefaultSigner: string := "zkputer-dev-signer"
  const DefaultReceiptVersion: string := "v0.1.0"
  const PendingStatement: string := "PENDING: statement unavailable until evidence collection completes"
  const VerificationFailedDetail: string := "Offchain verification failed for produced proof metadata."

  /** `ReceiptEngine` without its store and task registry: the adapters as
      registered, the policy engine, the prover, the signer and the version. */
  datatype ReceiptEngine = ReceiptEngine(
    adapters: seq<Adapter>,
    policy: Policy.PolicyEngine,
    prover: Prover.Backend,
    signer: string,
    receiptVersion: string)

  /** `ReceiptEngine::new`. */
  function NewEngine(adapters: seq<Adapter>, policy: Policy.PolicyEngine, prover: Prover.Backend): (e: ReceiptEngine)
    ensures e.signer == DefaultSigner && e.receiptVersion == DefaultReceiptVersion
    ensures forall v :: AdapterIndex(e.adapters, v) == AdapterIndex(adapters, v)
  {
    ReceiptEngine(adapters, policy, prover, DefaultSigner, DefaultReceiptVersion)
  }

  // ---------------------------------------------------------------------------
  // Integrity

  function SchemaJson(receiptVersion: string): Json.Value {
    Json.Object(map["schema" := Json.String("zkreceipt.schema.json"), "version" := Json.String(receiptVersion)])
  }

  function ReceiptHashJson(status: ReceiptStatus, claimHash: string, evidenceRoot: string, proofHash: string): Json.Value {
    Json.Object(map[
      "status" := Json.String(StatusName(status)),
      "claim_hash" := Json.String(claimHash),
      "evidence_root" := Json.String(evidenceRoot),
      "proof_hash" := Json.String(proofHash)])
  }

  function SignatureJson(signer: string, receiptHash: string): Json.Value {
    Json.Object(map["signer" := Json.String(signer), "receipt_hash" := Json.String(receiptHash)])
  }

  /** `build_integrity`: the schema hash binds the version, the receipt hash
      binds status, claim hash, evidence root and proof hash, and the
      signature binds the signer and the receipt hash. */
  function BuildIntegrity(h: Hashing.Hasher, signer: string, receiptVersion: string, status: ReceiptStatus,
                          claimHash: string, evidenceRoot: string, proofHash: string): (i: Integrity)
    ensures i.signer == signer
    ensures i.schemaHash == Hashing.HashJson(h, SchemaJson(receiptVersion))
    ensures i.receiptHash == Hashing.HashJson(h, ReceiptHashJson(status, claimHash, evidenceRoot, proofHash))
    ensures i.signature == Hashing.HashJson(h, SignatureJson(signer, i.receiptHash))
    ensures Hashing.IsHashString(i.schemaHash) && Hashing.IsHashString(i.receiptHash) && Hashing.IsHashString(i.signature)
  {
    var receiptHash := Hashing.HashJson(h, ReceiptHashJson(status, claimHash, evidenceRoot, proofHash));
    Integrity(
      Hashing.HashJson(h, SchemaJson(receiptVersion)),
      receiptHash,
      signer,
      Hashing.HashJson(h, SignatureJson(signer, receiptHash)))
  }

  /** The signature depends on nothing but the signer and the receipt hash. */
  lemma SignatureDependsOnSignerAndReceiptHash(
    h: Hashing.Hasher, signer: string, v1: string, v2: string, s1: ReceiptStatus, s2: ReceiptStatus,
    c1: string, c2: string, e1: string, e2: string, p1: string, p2: string)
    requires BuildIntegrity(h, signer, v1, s1, c1, e1, p1).receiptHash == BuildIntegrity(h, signer, v2, s2, c2, e2, p2).receiptHash
    ensures BuildIntegrity(h, signer, v1, s1, c1, e1, p1).signature == BuildIntegrity(h, signer, v2, s2, c2, e2, p2).signature
  {
  }

  /** Receipts with different statuses hash different preimages: the receipt
      hash binds the status (up to the collision resistance of the hash,
      which is not modelled). */
  lemma ReceiptHashPreimageBindsStatus(s1: ReceiptStatus, s2: ReceiptStatus, c: string, e: string, p: string)
    requires s1 != s2
    ensures ReceiptHashJson(s1, c, e, p) != ReceiptHashJson(s2, c, e, p)
  {
    if ReceiptHashJson(s1, c, e, p) == ReceiptHashJson(s2, c, e, p) {
      assert ReceiptHashJson(s1, c, e, p).fields["status"] == ReceiptHashJson(s2, c, e, p).fields["status"];
      StatusNameInjective(s1, s2);
    }
  }

  /** The integrity block is the one `build_integrity` gives for the
      receipt's own status, claim hash, evidence root and proof hash. */
  predicate IntegrityConsistent(h: Hashing.Hasher, e: ReceiptEngine, r: Receipt) {
    r.integrity == BuildIntegrity(h, e.signer, e.receiptVersion, r.status,
                                  r.claim.claimHash, r.provenance.evidenceRoot, r.proof.publicInputsHash)
  }

  // ---------------------------------------------------------------------------
  // Receipts

  function PendingClaimJson(request: ProofRequest): Json.Value {
    Json.Object(map[
      "venue" := Json.String(VenueSlug(request.venue)),
      "claim_type" := Json.String(ClaimTypeName(request.claimType)),
      "account_ref" := Json.String(request.accountRef),
      "order_ref" := Json.String(request.orderRef),
      "execution_ref" := Json.OptionalString(request.executionRef)])
  }

  /** The evidence root of a receipt before any evidence: the hash of `{"empty": true}`. */
  function EmptyEvidenceRoot(h: Hashing.Hasher): string {
    Hashing.HashJson(h, Json.Object(map["empty" := Json.Bool(true)]))
  }

  function PolicyContextOf(pe: Policy.PolicyEngine): PolicyContext {
    PolicyContext(Policy.PolicyId, Policy.FinalityRuleId, Policy.SourcePrecedenceVersion(pe))
  }

  /** `new_pending_receipt`; the fresh id and the current time are parameters. */
  function NewPendingReceipt(h: Hashing.Hasher, e: ReceiptEngine, request: ProofRequest, receiptId: string, now: string)
    : (r: Receipt)
    ensures r.receiptId == receiptId && r.version == e.receiptVersion
    ensures r.status == Pending && r.nonProvable == None
    ensures r.proof == Prover.NoProofMetadata()
    ensures r.claim == TruthClaim(request.claimType, PendingStatement, Hashing.HashJson(h, PendingClaimJson(request)))
    ensures r.subject == Subject(request.venue, request.accountRef, request.orderRef, request.executionRef)
    ensures r.policy.sourcePrecedenceVersion == Policy.SourcePrecedenceVersion(e.policy)
    ensures r.policy.policyId == Policy.PolicyId && r.policy.finalityRuleId == Policy.FinalityRuleId
    ensures r.provenance == Provenance(EmptyEvidenceRoot(h), [])
    ensures r.timing.createdAt == r.timing.updatedAt == now
    ensures r.timing.executionObservedAt == None && r.timing.finalityObservedAt == None
    ensures IntegrityConsistent(h, e, r)
    ensures !Verifier.Verify(h, r)
  {
    var claimHash := Hashing.HashJson(h, PendingClaimJson(request));
    var proof := Prover.NoProofMetadata();
    var root := EmptyEvidenceRoot(h);
    Receipt(
      receiptId,
      e.receiptVersion,
      Pending,
      TruthClaim(request.claimType, PendingStatement, claimHash),
      Subject(request.venue, request.accountRef, request.orderRef, request.executionRef),
      PolicyContextOf(e.policy),
      Provenance(root, []),
      Timing(now, now, None, None),
      proof,
      BuildIntegrity(h, e.signer, e.receiptVersion, Pending, claimHash, root, proof.publicInputsHash),
      None)
  }

  /** What every write of the receipt task keeps from the receipt it started with. */
  predicate Preserves(before: Receipt, after: Receipt) {
    && after.receiptId == before.receiptId
    && after.version == before.version
    && after.subject == before.subject
    && after.policy == before.policy
    && after.claim.claimType == before.claim.claimType
    && after.timing.createdAt == before.timing.createdAt
  }

  /** `mark_non_provable`: records the reason, drops any proof, re-signs. */
  function MarkNonProvable(h: Hashing.Hasher, e: ReceiptEngine, r: Receipt, reason: NonProvableReason, details: string, now: string)
    : (m: Receipt)
    ensures m.status == NonProvable
    ensures m.nonProvable == Some(NonProvableDetail(reason, details))
    ensures m.proof == Prover.NoProofMetadata()
    ensures Preserves(r, m)
    ensures m.claim == r.claim && m.provenance == r.provenance
    ensures m.timing == r.timing.(updatedAt := now)
    ensures IntegrityConsistent(h, e, m)
    ensures !Verifier.Verify(h, m)
  {
    var proof := Prover.NoProofMetadata();
    r.(status := NonProvable,
       nonProvable := Some(NonProvableDetail(reason, details)),
       timing := r.timing.(updatedAt := now),
       proof := proof,
       integrity := BuildIntegrity(h, e.signer, e.receiptVersion, NonProvable,
                                   r.claim.claimHash, r.provenance.evidenceRoot, proof.publicInputsHash))
  }

  /** `build_proved_receipt`: installs the statement, the evidence and the proof. */
  function BuildProvedReceipt(h: Hashing.Hasher, e: ReceiptEngine, r: Receipt, claimHash: string, statement: string,
                              bundle: EvidenceBundle, proof: ProofMetadata, now: string): (p: Receipt)
    ensures p.status == Proved && p.nonProvable == None
    ensures p.claim == TruthClaim(r.claim.claimType, statement, claimHash)
    ensures p.provenance == Provenance(EvidenceRoot(h, bundle), bundle.items)
    ensures p.timing == Timing(r.timing.createdAt, now, Some(now), bundle.finalityObservedAt)
    ensures p.proof == proof
    ensures Preserves(r, p)
    ensures IntegrityConsistent(h, e, p)
  {
    var root := EvidenceRoot(h, bundle);
    r.(status := Proved,
       claim := r.claim.(statement := statement, claimHash := claimHash),
       provenance := Provenance(root, bundle.items),
       timing := r.timing.(updatedAt := now, executionObservedAt := Some(now),
                           finalityObservedAt := bundle.finalityObservedAt),
       proof := proof,
       integrity := BuildIntegrity(h, e.signer, e.receiptVersion, Proved, claimHash, root, proof.publicInputsHash),
       nonProvable := None)
  }

  // ---------------------------------------------------------------------------
  // The receipt task

  /** The timestamps the receipt task reads from the wall clock. */
  datatype TaskClock = TaskClock(
    ackAt: string,
    collection: Synthetic.CollectionClock,
    provedAt: string,
    markedAt: string)

  /** The calls the receipt task makes, in order. */
  datatype Stage = AckStage | EvidenceStage | PolicyStage | StatementStage | ProverStage | VerifierStage

  /** The receipt the receipt task writes and the stages it reached. */
  datatype TaskResult = TaskResult(receipt: Receipt, trace: seq<Stage>)

  /** The hashed preimage of the final claim. */
  function FinalClaimJson(request: ProofRequest, statement: string): Json.Value {
    Json.Object(map[
      "claim_type" := Json.String(ClaimTypeName(request.claimType)),
      "statement" := Json.String(statement),
      "order_ref" := Json.String(request.orderRef),
      "execution_ref" := Json.OptionalString(request.executionRef)])
  }

  /** The public inputs handed to the prover. */
  function PublicInputs(claimHash: string, evidenceRoot: string, venue: Venue, claimType: ClaimType): Json.Value {
    Json.Object(map[
      "claim_hash" := Json.String(claimHash),
      "evidence_root" := Json.String(evidenceRoot),
      "venue" := Json.String(VenueSlug(venue)),
      "claim_type" := Json.String(ClaimTypeName(claimType))])
  }

  /** The public inputs the engine proves are the ones the verifier
      recomputes from the receipt it builds. */
  lemma PublicInputsMatchVerifier(h: Hashing.Hasher, e: ReceiptEngine, r: Receipt, claimHash: string, statement: string,
                                  bundle: EvidenceBundle, proof: ProofMetadata, now: string)
    ensures Verifier.ExpectedPublicInputs(BuildProvedReceipt(h, e, r, claimHash, statement, bundle, proof, now))
         == PublicInputs(claimHash, EvidenceRoot(h, bundle), r.subject.venue, r.claim.claimType)
  {
  }

  /** What every write of the receipt task satisfies: a terminal status, a
      non-provable record exactly when not proved, no proof unless proved,
      a consistent integrity block, identity fields kept, and PROVED exactly
      when the verifier accepts the written receipt. */
  predicate TerminalWrite(h: Hashing.Hasher, e: ReceiptEngine, before: Receipt, after: Receipt) {
    && (after.status == Proved || after.status == NonProvable)
    && (after.status == NonProvable <==> after.nonProvable.Some?)
    && (after.status == NonProvable ==> after.proof == Prover.NoProofMetadata())
    && (after.status == Proved <==> Verifier.Verify(h, after))
    && IntegrityConsistent(h, e, after)
    && Preserves(before, after)
  }

  /** The prover and verifier stages. */
  function RunProofStages(h: Hashing.Hasher, e: ReceiptEngine, clock: TaskClock, receipt: Receipt,
                          request: ProofRequest, statement: string, bundle: EvidenceBundle): (o: TaskResult)
    ensures TerminalWrite(h, e, receipt, o.receipt)
    ensures o.trace == [ProverStage] || o.trace == [ProverStage, VerifierStage]
    ensures var inputs := PublicInputs(Hashing.HashJson(h, FinalClaimJson(request, statement)),
                                       EvidenceRoot(h, bundle), request.venue, request.claimType);
            && (Prover.Prove(h, e.prover, inputs).Err? <==> o.trace == [ProverStage])
            && (Prover.Prove(h, e.prover, inputs).Err? ==>
                  o.receipt.nonProvable == Some(NonProvableDetail(ProofFailure, Prover.Prove(h, e.prover, inputs).error)))
            && (Prover.Prove(h, e.prover, inputs).Err? ==>
                  o.receipt == MarkNonProvable(h, e, receipt, ProofFailure, Prover.Prove(h, e.prover, inputs).error, clock.markedAt))
    ensures o.trace == [ProverStage, VerifierStage] && o.receipt.status == NonProvable ==>
              o.receipt.nonProvable == Some(NonProvableDetail(ProofFailure, VerificationFailedDetail))
    ensures o.receipt.status == Proved ==>
              && o.receipt.claim.statement == statement
              && o.receipt.provenance == Provenance(EvidenceRoot(h, bundle), bundle.items)
    ensures var claimHash := Hashing.HashJson(h, FinalClaimJson(request, statement));
            var inputs := PublicInputs(claimHash, EvidenceRoot(h, bundle), request.venue, request.claimType);
            Prover.Prove(h, e.prover, inputs).Ok? ==>
              var proof := Prover.Prove(h, e.prover, inputs).value;
              var built := BuildProvedReceipt(h, e, receipt, claimHash, statement, bundle, proof, clock.provedAt);
              && o.trace == [ProverStage, VerifierStage]
              && (Verifier.Verify(h, built) ==> o.receipt == built)
              && (!Verifier.Verify(h, built) ==>
                    o.receipt == MarkNonProvable(h, e, built, ProofFailure, VerificationFailedDetail, clock.markedAt))
              && (o.receipt.status == Proved ==> o.receipt.claim.claimHash == claimHash && o.receipt.proof == proof)
  {
    var claimHash := Hashing.HashJson(h, FinalClaimJson(request, statement));
    var inputs := PublicInputs(claimHash, EvidenceRoot(h, bundle), request.venue, request.claimType);
    match Prover.Prove(h, e.prover, inputs)
    case Err(msg) =>
      TaskResult(MarkNonProvable(h, e, receipt, ProofFailure, msg, clock.markedAt), [ProverStage])
    case Ok(proof) =>
      var proved := BuildProvedReceipt(h, e, receipt, claimHash, statement, bundle, proof, clock.provedAt);
      if Verifier.Verify(h, proved) then
        TaskResult(proved, [ProverStage, VerifierStage])
      else
        TaskResult(MarkNonProvable(h, e, proved, ProofFailure, VerificationFailedDetail, clock.markedAt),
                   [ProverStage, VerifierStage])
  }

  /** The policy check and statement synthesis, then the proof stages. */
  function RunPolicyStages(h: Hashing.Hasher, e: ReceiptEngine, clock: TaskClock, receipt: Receipt, request: ProofRequest,
                           adapter: Adapter, ack: ExecutionAck, bundle: EvidenceBundle): (o: TaskResult)
    ensures TerminalWrite(h, e, receipt, o.receipt)
    ensures |o.trace| >= 1 && o.trace[0] == PolicyStage
    ensures var d := Policy.Evaluate(e.policy, request.venue, request.claimType, bundle);
            && (!d.ok <==> o.trace == [PolicyStage])
            && (!d.ok ==> o.receipt.nonProvable == Some(NonProvableDetail(d.reason.GetOr(PolicyViolation), d.details)))
            && (!d.ok ==> o.receipt == MarkNonProvable(h, e, receipt, d.reason.GetOr(PolicyViolation), d.details, clock.markedAt))
    ensures var s := BuildStatement(adapter, request, ack, bundle);
            && (o.trace == [PolicyStage, StatementStage] <==>
                  Policy.Evaluate(e.policy, request.venue, request.claimType, bundle).ok && s.Err?)
            && (o.trace == [PolicyStage, StatementStage] ==>
                  o.receipt.nonProvable == Some(NonProvableDetail(PolicyViolation, s.error)))
            && (o.trace == [PolicyStage, StatementStage] ==>
                  o.receipt == MarkNonProvable(h, e, receipt, PolicyViolation, s.error, clock.markedAt))
            && (Policy.Evaluate(e.policy, request.venue, request.claimType, bundle).ok && s.Ok? ==>
                  && o.trace == [PolicyStage, StatementStage] + RunProofStages(h, e, clock, receipt, request, s.value, bundle).trace
                  && o.receipt == RunProofStages(h, e, clock, receipt, request, s.value, bundle).receipt)
            && (|o.trace| > 2 ==>
                  && s.Ok?
                  && o.trace == [PolicyStage, StatementStage] + RunProofStages(h, e, clock, receipt, request, s.value, bundle).trace
                  && o.receipt == RunProofStages(h, e, clock, receipt, request, s.value, bundle).receipt)
  {
    var d := Policy.Evaluate(e.policy, request.venue, request.claimType, bundle);
    if !d.ok then
      TaskResult(MarkNonProvable(h, e, receipt, d.reason.GetOr(PolicyViolation), d.details, clock.markedAt), [PolicyStage])
    else
      match BuildStatement(adapter, request, ack, bundle)
      case Err(msg) =>
        TaskResult(MarkNonProvable(h, e, receipt, PolicyViolation, msg, clock.markedAt), [PolicyStage, StatementStage])
      case Ok(statement) =>
        var p := RunProofStages(h, e, clock, receipt, request, statement, bundle);
        TaskResult(p.receipt, [PolicyStage, StatementStage] + p.trace)
  }

  /** Acknowledgement and evidence collection, then the policy stages. */
  function RunAdapterStages(h: Hashing.Hasher, e: ReceiptEngine, clock: TaskClock, receipt: Receipt,
                            request: ProofRequest, adapter: Adapter): (o: TaskResult)
    ensures TerminalWrite(h, e, receipt, o.receipt)
    ensures |o.trace| >= 1 && o.trace[0] == AckStage
    ensures var a := Acknowledge(h, adapter, request, clock.ackAt);
            && (a.Err? <==> o.trace == [AckStage])
            && (a.Err? ==> o.receipt.nonProvable == Some(NonProvableDetail(SourceUnavailable, a.error)))
            && (a.Err? ==> o.receipt == MarkNonProvable(h, e, receipt, SourceUnavailable, a.error, clock.markedAt))
            && (a.Ok? ==> var c := CollectEvidence(h, adapter, request, a.value, clock.collection);
                  && (c.Err? <==> o.trace == [AckStage, EvidenceStage])
                  && (c.Err? ==> o.receipt.nonProvable == Some(NonProvableDetail(SourceUnavailable, c.error)))
                  && (c.Err? ==> o.receipt == MarkNonProvable(h, e, receipt, SourceUnavailable, c.error, clock.markedAt))
                  && (c.Ok? ==> var p := RunPolicyStages(h, e, clock, receipt, request, adapter, a.value, c.value);
                        o.trace == [AckStage, EvidenceStage] + p.trace && o.receipt == p.receipt))
  {
    match Acknowledge(h, adapter, request, clock.ackAt)
    case Err(msg) =>
      TaskResult(MarkNonProvable(h, e, receipt, SourceUnavailable, msg, clock.markedAt), [AckStage])
    case Ok(ack) =>
      match CollectEvidence(h, adapter, request, ack, clock.collection)
      case Err(msg) =>
        TaskResult(MarkNonProvable(h, e, receipt, SourceUnavailable, msg, clock.markedAt), [AckStage, EvidenceStage])
      case Ok(bundle) =>
        var p := RunPolicyStages(h, e, clock, receipt, request, adapter, ack, bundle);
        TaskResult(p.receipt, [AckStage, EvidenceStage] + p.trace)
  }

  /** `process_receipt_task` after the receipt was read from the store: no
      adapter for the venue ends the receipt task before any adapter call. */
  function ProcessReceipt(h: Hashing.Hasher, e: ReceiptEngine, clock: TaskClock, receipt: Receipt, request: ProofRequest)
    : (o: TaskResult)
    ensures TerminalWrite(h, e, receipt, o.receipt)
    ensures AdapterIndex(e.adapters, request.venue).None? <==> o.trace == []
    ensures AdapterIndex(e.adapters, request.venue).None? ==>
              o.receipt.nonProvable == Some(NonProvableDetail(UnsupportedVenueClaim,
                                              "No adapter registered for venue " + VenueDebugName(request.venue)))
    ensures AdapterIndex(e.adapters, request.venue).None? ==>
              o.receipt == MarkNonProvable(h, e, receipt, UnsupportedVenueClaim,
                                           "No adapter registered for venue " + VenueDebugName(request.venue), clock.markedAt)
    ensures AdapterIndex(e.adapters, request.venue).Some? ==>
              o == RunAdapterStages(h, e, clock, receipt, request, e.adapters[AdapterIndex(e.adapters, request.venue).value])
  {
    match AdapterIndex(e.adapters, request.venue)
    case None =>
      TaskResult(MarkNonProvable(h, e, receipt, UnsupportedVenueClaim,
                                 "No adapter registered for venue " + VenueDebugName(request.venue), clock.markedAt), [])
    case Some(i) =>
      RunAdapterStages(h, e, clock, receipt, request, e.adapters[i])
  }

  // ---------------------------------------------------------------------------
  // End-to-end properties

  /** The receipt the receipt task works on was made from the request it is given. */
  predicate MadeFrom(receipt: Receipt, request: ProofRequest) {
    receipt.subject.venue == request.venue && receipt.claim.claimType == request.claimType
  }

  /** With the shipped prover, the proof stages always end PROVED. */
  lemma Sp1ProofVerifies(h: Hashing.Hasher, e: ReceiptEngine, clock: TaskClock, receipt: Receipt,
                         request: ProofRequest, statement: string, bundle: EvidenceBundle)
    requires e.prover.Sp1Mvp?
    requires MadeFrom(receipt, request)
    ensures RunProofStages(h, e, clock, receipt, request, statement, bundle).receipt.status == Proved
    ensures RunProofStages(h, e, clock, receipt, request, statement, bundle).trace == [ProverStage, VerifierStage]
  {
    var claimHash := Hashing.HashJson(h, FinalClaimJson(request, statement));
    var inputs := PublicInputs(claimHash, EvidenceRoot(h, bundle), request.venue, request.claimType);
    var proof := Prover.Sp1Prove(h, inputs).value;
    var proved := BuildProvedReceipt(h, e, receipt, claimHash, statement, bundle, proof, clock.provedAt);
    PublicInputsMatchVerifier(h, e, receipt, claimHash, statement, bundle, proof, clock.provedAt);
    assert Verifier.Verify(h, proved);
  }

  /** Once the receipt task reaches the shipped prover, the receipt ends PROVED. */
  lemma ShippedProverAlwaysProves(h: Hashing.Hasher, e: ReceiptEngine, clock: TaskClock,
                                  receipt: Receipt, request: ProofRequest)
    requires e.prover.Sp1Mvp?
    requires MadeFrom(receipt, request)
    requires ProverStage in ProcessReceipt(h, e, clock, receipt, request).trace
    ensures ProcessReceipt(h, e, clock, receipt, request).receipt.status == Proved
  {
    var i := AdapterIndex(e.adapters, request.venue).value;
    var adapter := e.adapters[i];
    var ack := Acknowledge(h, adapter, request, clock.ackAt).value;
    var bundle := CollectEvidence(h, adapter, request, ack, clock.collection).value;
    var statement := BuildStatement(adapter, request, ack, bundle).value;
    Sp1ProofVerifies(h, e, clock, receipt, request, statement, bundle);
  }

  /** A bundle the policy accepts, with a statement the adapter produced,
      ends PROVED under the shipped prover. */
  lemma AcceptedBundleProves(h: Hashing.Hasher, e: ReceiptEngine, clock: TaskClock, receipt: Receipt,
                             request: ProofRequest, adapter: Adapter, ack: ExecutionAck, bundle: EvidenceBundle)
    requires e.prover.Sp1Mvp?
    requires MadeFrom(receipt, request)
    requires Policy.Evaluate(e.policy, request.venue, request.claimType, bundle).ok
    requires BuildStatement(adapter, request, ack, bundle).Ok?
    ensures RunPolicyStages(h, e, clock, receipt, request, adapter, ack, bundle).receipt.status == Proved
  {
    Sp1ProofVerifies(h, e, clock, receipt, request, BuildStatement(adapter, request, ack, bundle).value, bundle);
  }

  /** The prover is reached only for a bundle the policy accepted and a
      statement the adapter produced. */
  lemma ProverReachedOnlyAfterAcceptance(h: Hashing.Hasher, e: ReceiptEngine, clock: TaskClock,
                                         receipt: Receipt, request: ProofRequest)
    requires ProverStage in ProcessReceipt(h, e, clock, receipt, request).trace
    ensures AdapterIndex(e.adapters, request.venue).Some?
    ensures var adapter := e.adapters[AdapterIndex(e.adapters, request.venue).value];
            var a := Acknowledge(h, adapter, request, clock.ackAt);
            && a.Ok?
            && var c := CollectEvidence(h, adapter, request, a.value, clock.collection);
            && c.Ok?
            && Policy.Evaluate(e.policy, request.venue, request.claimType, c.value).ok
            && BuildStatement(adapter, request, a.value, c.value).Ok?
  {
  }

  /** A policy rejection ends the receipt task with the policy's reason and details;
      statement synthesis and proving are never reached. */
  lemma PolicyRejectionStopsPipeline(h: Hashing.Hasher, e: ReceiptEngine, clock: TaskClock,
                                     receipt: Receipt, request: ProofRequest, adapter: Adapter,
                                     ack: ExecutionAck, bundle: EvidenceBundle)
    requires !Policy.Evaluate(e.policy, request.venue, request.claimType, bundle).ok
    ensures var o := RunPolicyStages(h, e, clock, receipt, request, adapter, ack, bundle);
            var d := Policy.Evaluate(e.policy, request.venue, request.claimType, bundle);
            && StatementStage !in o.trace && ProverStage !in o.trace
            && o.receipt.status == NonProvable
            && o.receipt.nonProvable == Some(NonProvableDetail(d.reason.value, d.details))
  {
  }

  /** With the shipped prover, a receipt is never rejected for a proof failure:
      every NON_PROVABLE outcome names an adapter, evidence or policy reason. */
  lemma ShippedProverNeverFailsProof(h: Hashing.Hasher, e: ReceiptEngine, clock: TaskClock,
                                     receipt: Receipt, request: ProofRequest)
    requires e.prover.Sp1Mvp?
    requires MadeFrom(receipt, request)
    ensures var o := ProcessReceipt(h, e, clock, receipt, request);
            o.receipt.status == NonProvable ==> o.receipt.nonProvable.value.reasonCode != ProofFailure
  {
    var o := ProcessReceipt(h, e, clock, receipt, request);
    if ProverStage in o.trace {
      ShippedProverAlwaysProves(h, e, clock, receipt, request);
    } else if o.receipt.status == NonProvable && |o.trace| >= 3 {
      var adapter := e.adapters[AdapterIndex(e.adapters, request.venue).value];
      var ack := Acknowledge(h, adapter, request, clock.ackAt).value;
      var bundle := CollectEvidence(h, adapter, request, ack, clock.collection).value;
      Policy.RejectionReasons(e.policy, request.venue, request.claimType, bundle);
    }
  }
}

=== FILE: hashing.dfy ===
/** The hash helpers of src/models.rs: `hash_str` (SHA-256 rendered as "0x"
    followed by lowercase hex) and `hash_json` (hash of the JSON text).

    SHA-256 itself and serde_json's byte serialisation are not modelled: they
    are the two opaque parameters of a `Hasher`. The hex rendering around them
    is modelled exactly. */
module Hashing {
  import opened Wrappers
  import Json

  type Byte = b: int | 0 <= b < 256

  /** A SHA-256 digest: 32 bytes. */
  type Digest = d: seq<Byte> | |d| == 32 witness seq(32, _ => 0)

  /** The hash primitive and the JSON serialiser the model treats as opaque.
      `serialize` returning `None` stands for a serde_json failure. */
  datatype Hasher = Hasher(sha256: string -> Digest, serialize: Json.Value -> Option<string>)

  predicate IsLowerHex(c: char) {
    ('0' <= c <= '9') || ('a' <= c <= 'f')
  }

  function HexDigit(n: int): (c: char)
    requires 0 <= n < 16
    ensures IsLowerHex(c)
  {
    if n < 10 then ('0' as int + n) as char else ('a' as int + n - 10) as char
  }

  function HexValue(c: char): (n: int)
    requires IsLowerHex(c)
    ensures 0 <= n < 16
  {
    if c <= '9' then c as int - '0' as int else c as int - 'a' as int + 10
  }

  /** `hex::encode`: two lowercase hex digits per byte, high nibble first. */
  function HexEncode(bytes: seq<Byte>): (r: string)
    ensures |r| == 2 * |bytes|
    ensures forall i :: 0 <= i < |r| ==> IsLowerHex(r[i])
  {
    if |bytes| == 0 then
      []
    else
      [HexDigit(bytes[0] / 16), HexDigit(bytes[0] % 16)] + HexEncode(bytes[1..])
  }

  /** Reads lowercase hex back into bytes; absent on odd length or a non-hex digit. */
  function HexDecode(s: string): Option<seq<Byte>>
    decreases |s|
  {
    if |s| == 0 then
      Some([])
    else if |s| == 1 || !IsLowerHex(s[0]) || !IsLowerHex(s[1]) then
      None
    else
      match HexDecode(s[2..])
      case None => None
      case Some(rest) => Some([HexValue(s[0]) * 16 + HexValue(s[1])] + rest)
  }

  /** Hex encoding loses nothing: decoding gives the bytes back. */
  lemma {:induction false} HexRoundTrip(bytes: seq<Byte>)
    ensures HexDecode(HexEncode(bytes)) == Some(bytes)
  {
    if |bytes| > 0 {
      var s := HexEncode(bytes);
      HexRoundTrip(bytes[1..]);
      assert s[2..] == HexEncode(bytes[1..]);
      assert HexValue(s[0]) * 16 + HexValue(s[1]) == bytes[0];
      assert bytes == [bytes[0]] + bytes[1..];
    }
  }

  /** The shape of every hash the system prints: "0x" and 64 lowercase hex digits. */
  predicate IsHashString(s: string) {
    |s| == 66 && s[0] == '0' && s[1] == 'x' && forall i :: 2 <= i < 66 ==> IsLowerHex(s[i])
  }

  /** `hash_str`: SHA-256 of the input, as "0x" + hex. */
  function HashStr(h: Hasher, input: string): (r: string)
    ensures IsHashString(r)
    ensures HexDecode(r[2..]) == Some(h.sha256(input))
  {
    var d := h.sha256(input);
    HexRoundTrip(d);
    var r := "0x" + HexEncode(d);
    assert r[2..] == HexEncode(d);
    r
  }

  /** `hash_json`: `hash_str` of the serialised value, or of "{}" when
      serialisation fails. */
  function HashJson(h: Hasher, v: Json.Value): (r: string)
    ensures IsHashString(r)
    ensures h.serialize(v).Some? ==> r == HashStr(h, h.serialize(v).value)
    ensures h.serialize(v).None? ==> r == HashStr(h, "{}")
  {
    HashStr(h, h.serialize(v).GetOr("{}"))
  }

  /** The all-zero placeholder hash used before anything is proved. */
  function ZeroHash(): string {
    "0x" + seq(64, _ => '0')
  }

  lemma ZeroHashIsHashString()
    ensures IsHashString(ZeroHash())
  {
  }
}

=== FILE: json.dfy ===
/** An abstract JSON value, standing for `serde_json::Value`, with the
    accessors the receipt pipeline uses (`get`, `as_str`, `as_array`, ...).
    Objects are maps, as serde_json's default `Map` is a sorted map: the
    order in which a `json!` literal lists its keys is not observable. */
module Json {
  import opened Wrappers

  datatype Value =
    | Null
    | Bool(b: bool)
    | Number(n: int)
    | String(str: string)
    | Array(elems: seq<Value>)
    | Object(fields: map<string, Value>)
  {
    /** `value.get(key)`: the member `key` of an object, absent otherwise. */
    function Get(key: string): Option<Value> {
      if Object? && key in fields then Some(fields[key]) else None
    }

    function AsStr(): Option<string> {
      if String? then Some(str) else None
    }

    function AsBool(): Option<bool> {
      if Bool? then Some(b) else None
    }

    function AsArray(): Option<seq<Value>> {
      if Array? then Some(elems) else None
    }

    function AsObject(): Option<map<string, Value>> {
      if Object? then Some(fields) else None
    }

    /** `as_u64`: a non-negative integer that fits in 64 bits. */
    function AsU64(): Option<nat> {
      if Number? && 0 <= n < 0x1_0000_0000_0000_0000 then Some(n) else None
    }
  }

  /** Follows a chain of object keys; absent as soon as one step is missing. */
  function Lookup(v: Value, path: seq<string>): Option<Value>
    decreases |path|
  {
    if |path| == 0 then
      Some(v)
    else
      match v.Get(path[0])
      case None => None
      case Some(child) => Lookup(child, path[1..])
  }

  /** `filter_map(|v| v.as_str())`: the string elements of an array, in order,
      the others dropped. */
  function Strings(vs: seq<Value>): (r: seq<string>)
    ensures forall s :: s in r <==> String(s) in vs
    ensures |r| <= |vs|
  {
    if |vs| == 0 then
      []
    else
      var rest := Strings(vs[1..]);
      assert vs == [vs[0]] + vs[1..];
      if vs[0].String? then [vs[0].str] + rest else rest
  }

  /** A one-element array contributes its string, if it is one. */
  lemma StringsSingleton(v: Value)
    ensures Strings([v]) == if v.String? then [v.str] else []
  {
    assert [v][1..] == [];
  }

  /** Keeping the strings commutes with concatenation: they come out in
      array order, repetitions kept. */
  lemma {:induction false} StringsAppend(a: seq<Value>, b: seq<Value>)
    ensures Strings(a + b) == Strings(a) + Strings(b)
    decreases |a|
  {
    if |a| == 0 {
      assert a + b == b;
    } else {
      assert (a + b)[0] == a[0];
      assert (a + b)[1..] == a[1..] + b;
      StringsAppend(a[1..], b);
    }
  }

  /** The string elements of the array found at `path`, or nothing when the
      path is missing or does not lead to an array (`unwrap_or_default`). */
  function StringsAt(v: Value, path: seq<string>): (r: seq<string>)
    ensures Lookup(v, path).Some? && Lookup(v, path).value.Array? ==>
              && r == Strings(Lookup(v, path).value.elems)
              && forall s :: s in r <==> String(s) in Lookup(v, path).value.elems
    ensures !(Lookup(v, path).Some? && Lookup(v, path).value.Array?) ==> r == []
  {
    match Lookup(v, path)
    case Some(Array(elems)) => Strings(elems)
    case _ => []
  }

  /** A JSON array of strings. */
  function StringArray(ss: seq<string>): (r: Value)
    ensures r.Array? && |r.elems| == |ss|
    ensures forall i :: 0 <= i < |ss| ==> r.elems[i] == String(ss[i])
  {
    Array(seq(|ss|, i requires 0 <= i < |ss| => String(ss[i])))
  }

  /** An optional string as serde serialises it: the string, or `null`. */
  function OptionalString(s: Option<string>): Value {
    match s
    case Some(v) => String(v)
    case None => Null
  }
}

=== FILE: models.dfy ===
/** The receipt data model of src/models.rs: the closed enumerations with
    their wire names, the record types of a receipt, and the evidence root. */
module Models {
  import opened Wrappers
  import Json
  import Hashing
  import Sorting

  datatype Venue = Hyperliquid | Base | Solana | Polymarket

  datatype ClaimType = OrderPlaced | TradeExecuted

  datatype ReceiptStatus = Pending | Proved | NonProvable | Invalidated

  datatype NonProvableReason =
    | EvidenceMissing
    | EvidenceConflict
    | SourceUnavailable
    | FinalityTimeout
    | PolicyViolation
    | SchemaInvalid
    | UnsupportedVenueClaim
    | ProofFailure

  datatype VerificationMode = Offchain | OnchainAnchored | OffchainAndAnchored

  /** `NoBackend` is the "NONE" sentinel of not-yet-proved receipts. */
  datatype ProofBackend = Sp1 | Pico | NoBackend

  // ---------------------------------------------------------------------------
  // Wire names: venues serialise as lowercase slugs, the other enumerations
  // as their upper-snake-case variant names.

  function VenueSlug(v: Venue): string {
    match v
    case Hyperliquid => "hyperliquid"
    case Base => "base"
    case Solana => "solana"
    case Polymarket => "polymarket"
  }

  /** The `{:?}` rendering of a venue, used in the unsupported-venue detail. */
  function VenueDebugName(v: Venue): string {
    match v
    case Hyperliquid => "Hyperliquid"
    case Base => "Base"
    case Solana => "Solana"
    case Polymarket => "Polymarket"
  }

  function ClaimTypeName(c: ClaimType): string {
    match c
    case OrderPlaced => "ORDER_PLACED"
    case TradeExecuted => "TRADE_EXECUTED"
  }

  function StatusName(s: ReceiptStatus): string {
    match s
    case Pending => "PENDING"
    case Proved => "PROVED"
    case NonProvable => "NON_PROVABLE"
    case Invalidated => "INVALIDATED"
  }

  function ReasonName(r: NonProvableReason): string {
    match r
    case EvidenceMissing => "EVIDENCE_MISSING"
    case EvidenceConflict => "EVIDENCE_CONFLICT"
    case SourceUnavailable => "SOURCE_UNAVAILABLE"
    case FinalityTimeout => "FINALITY_TIMEOUT"
    case PolicyViolation => "POLICY_VIOLATION"
    case SchemaInvalid => "SCHEMA_INVALID"
    case UnsupportedVenueClaim => "UNSUPPORTED_VENUE_CLAIM"
    case ProofFailure => "PROOF_FAILURE"
  }

  /** Reads a venue slug back; the slug of exactly one venue, or nothing. */
  function ParseVenue(s: string): (r: Option<Venue>)
    ensures forall v :: r == Some(v) <==> VenueSlug(v) == s
  {
    if s == "hyperliquid" then Some(Hyperliquid)
    else if s == "base" then Some(Base)
    else if s == "solana" then Some(Solana)
    else if s == "polymarket" then Some(Polymarket)
    else None
  }

  /** Reads a claim type name back; the name of exactly one claim type, or nothing. */
  function ParseClaimType(s: string): (r: Option<ClaimType>)
    ensures forall c :: r == Some(c) <==> ClaimTypeName(c) == s
  {
    if s == "ORDER_PLACED" then Some(OrderPlaced)
    else if s == "TRADE_EXECUTED" then Some(TradeExecuted)
    else None
  }

  /** Reads a reason code back; the name of exactly one reason, or nothing. */
  function ParseReason(s: string): (r: Option<NonProvableReason>)
    ensures forall c :: r == Some(c) <==> ReasonName(c) == s
  {
    if s == "EVIDENCE_MISSING" then Some(EvidenceMissing)
    else if s == "EVIDENCE_CONFLICT" then Some(EvidenceConflict)
    else if s == "SOURCE_UNAVAILABLE" then Some(SourceUnavailable)
    else if s == "FINALITY_TIMEOUT" then Some(FinalityTimeout)
    else if s == "POLICY_VIOLATION" then Some(PolicyViolation)
    else if s == "SCHEMA_INVALID" then Some(SchemaInvalid)
    else if s == "UNSUPPORTED_VENUE_CLAIM" then Some(UnsupportedVenueClaim)
    else if s == "PROOF_FAILURE" then Some(ProofFailure)
    else None
  }

  /** Distinct statuses serialise to distinct names, so a receipt hash that
      binds the status name binds the status. */
  lemma StatusNameInjective(s: ReceiptStatus, t: ReceiptStatus)
    requires StatusName(s) == StatusName(t)
    ensures s == t
  {
  }

  // ---------------------------------------------------------------------------
  // Records

  datatype EvidenceItem = EvidenceItem(
    sourceId: string,
    sourceKind: string,
    artifactRef: string,
    artifactHash: string,
    observedAt: string,
    tags: seq<string>)

  datatype EvidenceBundle = EvidenceBundle(
    items: seq<EvidenceItem>,
    observedTags: set<string>,
    conflicts: seq<string>,
    finalityObservedAt: Option<string>)

  /** A submission; `payload` is free-form JSON read by the synthetic adapter. */
  datatype ProofRequest = ProofRequest(
    venue: Venue,
    claimType: ClaimType,
    accountRef: string,
    orderRef: string,
    executionRef: Option<string>,
    payload: Json.Value)

  datatype ExecutionAck = ExecutionAck(
    accepted: bool,
    venueOrderRef: string,
    acceptanceArtifactRef: string,
    acceptanceArtifactHash: string,
    acceptedAt: string)

  datatype TruthClaim = TruthClaim(claimType: ClaimType, statement: string, claimHash: string)

  datatype Subject = Subject(venue: Venue, accountRef: string, orderRef: string, executionRef: Option<string>)

  datatype PolicyContext = PolicyContext(policyId: string, finalityRuleId: string, sourcePrecedenceVersion: string)

  datatype Provenance = Provenance(evidenceRoot: string, evidenceItems: seq<EvidenceItem>)

  datatype Timing = Timing(
    createdAt: string,
    updatedAt: string,
    executionObservedAt: Option<string>,
    finalityObservedAt: Option<string>)

  datatype ProofMetadata = ProofMetadata(
    backend: ProofBackend,
    circuitId: string,
    circuitVersion: string,
    verifierKeyId: string,
    verifierKeyHash: string,
    publicInputsHash: string,
    verificationMode: VerificationMode,
    proofArtifactRef: Option<string>,
    anchoredRootRef: Option<string>)

  datatype NonProvableDetail = NonProvableDetail(reasonCode: NonProvableReason, details: string)

  datatype Integrity = Integrity(schemaHash: string, receiptHash: string, signer: string, signature: string)

  /** The `ZKReceipt` aggregate. */
  datatype Receipt = Receipt(
    receiptId: string,
    version: string,
    status: ReceiptStatus,
    claim: TruthClaim,
    subject: Subject,
    policy: PolicyContext,
    provenance: Provenance,
    timing: Timing,
    proof: ProofMetadata,
    integrity: Integrity,
    nonProvable: Option<NonProvableDetail>)

  // ---------------------------------------------------------------------------
  // Evidence root

  /** The artifact hashes of the items, in item order. */
  function ArtifactHashes(items: seq<EvidenceItem>): (r: seq<string>)
    ensures |r| == |items|
    ensures forall i :: 0 <= i < |items| ==> r[i] == items[i].artifactHash
  {
    seq(|items|, i requires 0 <= i < |items| => items[i].artifactHash)
  }

  /** `EvidenceBundle::evidence_root`: the hash of `{"leaves": [...]}` over the
      sorted artifact hashes. */
  function EvidenceRoot(h: Hashing.Hasher, b: EvidenceBundle): (r: string)
    ensures Hashing.IsHashString(r)
  {
    Hashing.HashJson(h, RootPreimage(Sorting.Sort(ArtifactHashes(b.items))))
  }

  /** The JSON value `{"leaves": leaves}` that the evidence root hashes. */
  function RootPreimage(leaves: seq<string>): Json.Value {
    Json.Object(map["leaves" := Json.StringArray(leaves)])
  }

  /** The evidence root is the hash of `{"leaves": leaves}` for the one
      sorted arrangement `leaves` of the items' artifact hashes. */
  lemma EvidenceRootIsHashOfSortedLeaves(h: Hashing.Hasher, b: EvidenceBundle, leaves: seq<string>)
    requires Sorting.Sorted(leaves) && multiset(leaves) == multiset(ArtifactHashes(b.items))
    ensures EvidenceRoot(h, b) == Hashing.HashJson(h, RootPreimage(leaves))
  {
    Sorting.SortedUnique(Sorting.Sort(ArtifactHashes(b.items)), leaves);
  }

  /** The evidence root depends only on the multiset of artifact hashes:
      neither the order of the items nor any of their other fields matters. */
  lemma EvidenceRootDependsOnlyOnHashes(h: Hashing.Hasher, b1: EvidenceBundle, b2: EvidenceBundle)
    requires multiset(ArtifactHashes(b1.items)) == multiset(ArtifactHashes(b2.items))
    ensures EvidenceRoot(h, b1) == EvidenceRoot(h, b2)
  {
    Sorting.SortPermutationInvariant(ArtifactHashes(b1.items), ArtifactHashes(b2.items));
  }

  /** Taking item `j` out of `b` takes its hash out of the hashes of `b`. */
  lemma HashesWithout(b: seq<EvidenceItem>, j: int)
    requires 0 <= j < |b|
    ensures multiset(ArtifactHashes(b))
         == multiset(ArtifactHashes(b[..j] + b[j + 1..])) + multiset{b[j].artifactHash}
  {
    var hb := ArtifactHashes(b);
    var rest := b[..j] + b[j + 1..];
    var hr := ArtifactHashes(rest);
    assert forall i :: 0 <= i < j ==> rest[i] == b[i];
    assert forall i :: j <= i < |rest| ==> rest[i] == b[i + 1];
    assert hr == hb[..j] + hb[j + 1..];
    assert hb == hb[..j] + [hb[j]] + hb[j + 1..];
    assert hb[j] == b[j].artifactHash;
  }

  /** Permuting items permutes their artifact hashes. */
  lemma {:induction false} PermutedItemsPermutedHashes(a: seq<EvidenceItem>, b: seq<EvidenceItem>)
    requires multiset(a) == multiset(b)
    ensures multiset(ArtifactHashes(a)) == multiset(ArtifactHashes(b))
    decreases |a|
  {
    if |a| == 0 {
      assert |b| == |multiset(b)| == 0;
    } else {
      assert a[0] in multiset(b);
      var j :| 0 <= j < |b| && b[j] == a[0];
      var rest := b[..j] + b[j + 1..];
      assert multiset(a[1..]) == multiset(rest) by {
        assert a == [a[0]] + a[1..];
        assert b == b[..j] + [b[j]] + b[j + 1..];
        assert multiset(a[1..]) == multiset(a) - multiset{a[0]};
        assert multiset(rest) == multiset(b) - multiset{b[j]};
      }
      PermutedItemsPermutedHashes(a[1..], rest);
      HashesWithout(a, 0);
      assert a[..0] + a[1..] == a[1..];
      HashesWithout(b, j);
    }
  }

  /** The evidence root is invariant under any permutation of the items. */
  lemma EvidenceRootPermutationInvariant(h: Hashing.Hasher, b1: EvidenceBundle, b2: EvidenceBundle)
    requires multiset(b1.items) == multiset(b2.items)
    ensures EvidenceRoot(h, b1) == EvidenceRoot(h, b2)
  {
    PermutedItemsPermutedHashes(b1.items, b2.items);
    EvidenceRootDependsOnlyOnHashes(h, b1, b2);
  }
}

=== FILE: policy.dfy ===
/** The policy engine of src/policy.rs: an ordered, short-circuiting check of
    an evidence bundle against the claim taxonomy (required tags per claim
    type) and the source-precedence table (preferred source kinds per venue
    and claim type). Both documents are taken already parsed. */
module Policy {
  import opened Wrappers
  import opened Json
  import opened Models

  datatype PolicyEngine = PolicyEngine(claimTaxonomy: Json.Value, sourcePrecedence: Json.Value)

  datatype PolicyDecision = PolicyDecision(ok: bool, reason: Option<NonProvableReason>, details: string)

  const PolicyId: string := "default-v0.1.0"
  const FinalityRuleId: string := "venue-default-finality-v0.1.0"

  /** The `version` string of the source-precedence document, "unknown" when
      it is missing or not a string. */
  function SourcePrecedenceVersion(pe: PolicyEngine): (r: string)
    ensures pe.sourcePrecedence.Get("version").Some? && pe.sourcePrecedence.Get("version").value.String? ==>
              r == pe.sourcePrecedence.Get("version").value.str
    ensures !(pe.sourcePrecedence.Get("version").Some? && pe.sourcePrecedence.Get("version").value.String?) ==>
              r == "unknown"
  {
    match pe.sourcePrecedence.Get("version")
    case Some(String(v)) => v
    case _ => "unknown"
  }

  function TaxonomyPath(c: ClaimType): seq<string> {
    ["claim_types", ClaimTypeName(c), "required_evidence_tags_all"]
  }

  function PreferenceListKey(c: ClaimType): string {
    match c
    case OrderPlaced => "order_placed_sources_preferred"
    case TradeExecuted => "trade_executed_sources_preferred"
  }

  function PrecedencePath(v: Venue, c: ClaimType): seq<string> {
    ["venues", VenueSlug(v), PreferenceListKey(c)]
  }

  /** The tags the taxonomy requires for a claim type: the string entries of
      `claim_types.<CLAIM>.required_evidence_tags_all`, in document order
      with repetitions (see `Json.StringsAppend`); none when absent. */
  function RequiredTagsForClaim(pe: PolicyEngine, c: ClaimType): (r: seq<string>)
    ensures match Json.Lookup(pe.claimTaxonomy, TaxonomyPath(c))
            case Some(Array(entries)) => r == Json.Strings(entries) && (forall t :: t in r <==> Json.String(t) in entries)
            case _ => r == []
  {
    Json.StringsAt(pe.claimTaxonomy, TaxonomyPath(c))
  }

  /** The preferred source kinds for a venue and claim type: the string
      entries of `venues.<venue>.<claim>_sources_preferred`, in document
      order; none when absent. */
  function PreferredSources(pe: PolicyEngine, v: Venue, c: ClaimType): (r: seq<string>)
    ensures match Json.Lookup(pe.sourcePrecedence, PrecedencePath(v, c))
            case Some(Array(entries)) => r == Json.Strings(entries) && (forall s :: s in r <==> Json.String(s) in entries)
            case _ => r == []
  {
    Json.StringsAt(pe.sourcePrecedence, PrecedencePath(v, c))
  }

  /** The required tags not observed, in taxonomy order, repetitions kept. */
  function MissingTags(required: seq<string>, observed: set<string>): (r: seq<string>)
    ensures forall t :: t in r <==> t in required && t !in observed
    ensures forall t :: multiset(r)[t] == if t in observed then 0 else multiset(required)[t]
  {
    if |required| == 0 then
      []
    else
      assert required == [required[0]] + required[1..];
      var rest := MissingTags(required[1..], observed);
      if required[0] in observed then rest else [required[0]] + rest
  }

  /** Filtering the taxonomy list commutes with concatenation, so the missing
      tags come out in the order the taxonomy lists them. */
  lemma {:induction false} MissingTagsAppend(a: seq<string>, b: seq<string>, observed: set<string>)
    ensures MissingTags(a + b, observed) == MissingTags(a, observed) + MissingTags(b, observed)
    decreases |a|
  {
    if |a| == 0 {
      assert a + b == b;
    } else {
      var ab := a + b;
      assert ab[0] == a[0];
      assert ab[1..] == a[1..] + b;
      MissingTagsAppend(a[1..], b, observed);
    }
  }

  /** `parts.join(sep)`. */
  function Join(parts: seq<string>, sep: string): string {
    if |parts| == 0 then ""
    else if |parts| == 1 then parts[0]
    else parts[0] + sep + Join(parts[1..], sep)
  }

  /** `preferred.iter().any(|p| observed.contains(p))`. */
  function AnyObserved(preferred: seq<string>, observed: seq<string>): (r: bool)
    ensures r <==> exists p :: p in preferred && p in observed
  {
    if |preferred| == 0 then false
    else preferred[0] in observed || AnyObserved(preferred[1..], observed)
  }

  function SourceKinds(items: seq<EvidenceItem>): (r: seq<string>)
    ensures |r| == |items| && forall j :: 0 <= j < |items| ==> r[j] == items[j].sourceKind
  {
    seq(|items|, j requires 0 <= j < |items| => items[j].sourceKind)
  }

  /** Every tag in `required` was observed. */
  predicate TagsPresent(required: seq<string>, observed: set<string>) {
    forall t :: t in required ==> t in observed
  }

  /** An empty preference list accepts anything; otherwise some item must come
      from a preferred kind of source. */
  predicate SourceAccepted(preferred: seq<string>, items: seq<EvidenceItem>) {
    |preferred| == 0 ||
    exists i, j :: 0 <= i < |preferred| && 0 <= j < |items| && preferred[i] == items[j].sourceKind
  }

  lemma AnyObservedIsSourceAccepted(preferred: seq<string>, items: seq<EvidenceItem>)
    ensures (|preferred| > 0 && !AnyObserved(preferred, SourceKinds(items))) <==> !SourceAccepted(preferred, items)
  {
    var observed := SourceKinds(items);
    if AnyObserved(preferred, observed) {
      var p :| p in preferred && p in observed;
      var i :| 0 <= i < |preferred| && preferred[i] == p;
      var j :| 0 <= j < |observed| && observed[j] == p;
    }
    if |preferred| > 0 && SourceAccepted(preferred, items) {
      var i, j :| 0 <= i < |preferred| && 0 <= j < |items| && preferred[i] == items[j].sourceKind;
      assert observed[j] == preferred[i];
    }
  }

  lemma MissingTagsEmptyIffPresent(required: seq<string>, observed: set<string>)
    ensures |MissingTags(required, observed)| == 0 <==> TagsPresent(required, observed)
  {
    var m := MissingTags(required, observed);
    if |m| > 0 {
      assert m[0] in m;
    }
  }

  /** `PolicyEngine::evaluate`: conflicts, then an empty bundle, then missing
      required tags, then source precedence; the first failing check decides. */
  function Evaluate(pe: PolicyEngine, venue: Venue, claimType: ClaimType, bundle: EvidenceBundle): (d: PolicyDecision)
    ensures d.ok <==>
              && |bundle.conflicts| == 0
              && |bundle.items| > 0
              && TagsPresent(RequiredTagsForClaim(pe, claimType), bundle.observedTags)
              && SourceAccepted(PreferredSources(pe, venue, claimType), bundle.items)
    ensures d.ok ==> d.reason == None && d.details == ""
    ensures !d.ok ==> d.reason.Some?
    ensures |bundle.conflicts| > 0 ==>
              && d.reason == Some(EvidenceConflict)
              && d.details == "Conflicting evidence entries detected: " + Join(bundle.conflicts, ", ")
    ensures |bundle.conflicts| == 0 && |bundle.items| == 0 ==>
              && d.reason == Some(EvidenceMissing)
              && d.details == "No evidence artifacts were collected."
    ensures |bundle.conflicts| == 0 && |bundle.items| > 0
            && !TagsPresent(RequiredTagsForClaim(pe, claimType), bundle.observedTags) ==>
              && d.reason == Some(EvidenceMissing)
              && d.details == "Missing required evidence tags: "
                              + Join(MissingTags(RequiredTagsForClaim(pe, claimType), bundle.observedTags), ", ")
    ensures |bundle.conflicts| == 0 && |bundle.items| > 0
            && TagsPresent(RequiredTagsForClaim(pe, claimType), bundle.observedTags)
            && !SourceAccepted(PreferredSources(pe, venue, claimType), bundle.items) ==>
              && d.reason == Some(SourceUnavailable)
              && d.details == "No acceptable preferred source kinds observed. Expected one of: "
                              + Join(PreferredSources(pe, venue, claimType), ", ")
  {
    if |bundle.conflicts| > 0 then
      PolicyDecision(false, Some(EvidenceConflict),
        "Conflicting evidence entries detected: " + Join(bundle.conflicts, ", "))
    else if |bundle.items| == 0 then
      PolicyDecision(false, Some(EvidenceMissing), "No evidence artifacts were collected.")
    else
      var missing := MissingTags(RequiredTagsForClaim(pe, claimType), bundle.observedTags);
      MissingTagsEmptyIffPresent(RequiredTagsForClaim(pe, claimType), bundle.observedTags);
      if |missing| > 0 then
        PolicyDecision(false, Some(EvidenceMissing), "Missing required evidence tags: " + Join(missing, ", "))
      else
        var preferred := PreferredSources(pe, venue, claimType);
        var observed := SourceKinds(bundle.items);
        AnyObservedIsSourceAccepted(preferred, bundle.items);
        if |preferred| > 0 && !AnyObserved(preferred, observed) then
          PolicyDecision(false, Some(SourceUnavailable),
            "No acceptable preferred source kinds observed. Expected one of: " + Join(preferred, ", "))
        else
          PolicyDecision(true, None, "")
  }

  /** A bundle that reports a conflict is rejected for the conflict, whatever
      its items, tags and sources. */
  lemma ConflictDominates(pe: PolicyEngine, venue: Venue, claimType: ClaimType, b1: EvidenceBundle, b2: EvidenceBundle)
    requires |b1.conflicts| > 0 && b1.conflicts == b2.conflicts
    ensures Evaluate(pe, venue, claimType, b1) == Evaluate(pe, venue, claimType, b2)
    ensures !Evaluate(pe, venue, claimType, b1).ok
  {
  }

  /** The policy rejects only for conflicting, missing or unacceptable evidence. */
  lemma RejectionReasons(pe: PolicyEngine, venue: Venue, claimType: ClaimType, bundle: EvidenceBundle)
    ensures var d := Evaluate(pe, venue, claimType, bundle);
            !d.ok ==> d.reason.value in {EvidenceConflict, EvidenceMissing, SourceUnavailable}
  {
  }
}

=== FILE: prover.dfy ===
/** The prover side of src/prover.rs: the shipped SP1 placeholder backend and
    the "no proof" metadata a receipt carries until it is proved. */
module Prover {
  import opened Wrappers
  import Json
  import Hashing
  import opened Models

  /** A proving backend: the shipped `Sp1MvpProver`, or any other backend,
      given as the function from public inputs to its result. */
  datatype Backend =
    | Sp1Mvp
    | CustomBackend(prove: Json.Value -> Result<ProofMetadata, string>)

  /** The JSON value whose hash is the SP1 verifier-key hash. */
  function Sp1VerifierKey(): Json.Value {
    Json.Object(map["backend" := Json.String("SP1"), "verifier_key" := Json.String("001")])
  }

  /** `Sp1MvpProver::prove`: never fails; binds the hash of the public inputs
      and points the artifact reference at it. */
  function Sp1Prove(h: Hashing.Hasher, publicInputs: Json.Value): (r: Result<ProofMetadata, string>)
    ensures r.Ok?
    ensures r.value.backend == Sp1
    ensures r.value.publicInputsHash == Hashing.HashJson(h, publicInputs)
    ensures Hashing.IsHashString(r.value.publicInputsHash) && Hashing.IsHashString(r.value.verifierKeyHash)
    ensures r.value.proofArtifactRef == Some("boundless://sp1/" + r.value.publicInputsHash)
    ensures r.value.verificationMode == Offchain
    ensures r.value.anchoredRootRef == None
    ensures r.value.verifierKeyHash == Hashing.HashJson(h, Sp1VerifierKey())
    ensures r.value.circuitId == "trade-receipt-sp1" && r.value.circuitVersion == "v0.1.0"
    ensures r.value.verifierKeyId == "sp1-vk-001"
  {
    var inputsHash := Hashing.HashJson(h, publicInputs);
    Ok(ProofMetadata(
      Sp1,
      "trade-receipt-sp1",
      "v0.1.0",
      "sp1-vk-001",
      Hashing.HashJson(h, Sp1VerifierKey()),
      inputsHash,
      Offchain,
      Some("boundless://sp1/" + inputsHash),
      None))
  }

  /** Runs whichever backend the engine was built with. */
  function Prove(h: Hashing.Hasher, backend: Backend, publicInputs: Json.Value): Result<ProofMetadata, string> {
    match backend
    case Sp1Mvp => Sp1Prove(h, publicInputs)
    case CustomBackend(prove) => prove(publicInputs)
  }

  /** `no_proof_metadata`: the "NONE" backend with all-zero hashes and no
      artifact references. */
  function NoProofMetadata(): (m: ProofMetadata)
    ensures m.backend == NoBackend
    ensures m.publicInputsHash == Hashing.ZeroHash() && m.verifierKeyHash == Hashing.ZeroHash()
    ensures Hashing.IsHashString(m.publicInputsHash)
    ensures m.proofArtifactRef == None && m.anchoredRootRef == None
    ensures m.verificationMode == Offchain
  {
    Hashing.ZeroHashIsHashString();
    ProofMetadata(NoBackend, "none", "none", "none", Hashing.ZeroHash(), Hashing.ZeroHash(), Offchain, None, None)
  }
}

=== FILE: scenarios.dfy ===
/** The engine wired as the repository's integration tests wire it (a
    synthetic adapter per venue and the SP1 placeholder prover), and the
    outcomes those tests expect, stated for every request of the same
    shape. The policy documents are parameters; where an outcome depends on
    their content, the lemma names what it needs from them. */
module Scenarios {
  import opened Wrappers
  import Json
  import Hashing
  import opened Models
  import Policy
  import Prover
  import Synthetic
  import opened Adapters
  import opened Engine

  function SyntheticAdapters(): seq<Adapter> {
    [SyntheticAdapter(Hyperliquid), SyntheticAdapter(Base), SyntheticAdapter(Solana), SyntheticAdapter(Polymarket)]
  }

  function TestEngine(pe: Policy.PolicyEngine): ReceiptEngine {
    NewEngine(SyntheticAdapters(), pe, Prover.Sp1Mvp)
  }

  /** Every venue is served, and by its own synthetic adapter. */
  lemma EveryVenueServed(pe: Policy.PolicyEngine, v: Venue)
    ensures AdapterIndex(TestEngine(pe).adapters, v).Some?
    ensures var a := TestEngine(pe).adapters[AdapterIndex(TestEngine(pe).adapters, v).value];
            a.SyntheticAdapter? && a.venue == v
  {
    var adapters := TestEngine(pe).adapters;
    var i := match v case Hyperliquid => 0 case Base => 1 case Solana => 2 case Polymarket => 3;
    assert adapters[i].venue == v;
  }

  /** A request that asks for a simulated conflict ends EVIDENCE_CONFLICT,
      before any statement is built. */
  lemma ConflictingEvidenceNonProvable(h: Hashing.Hasher, pe: Policy.PolicyEngine, clock: TaskClock,
                                       receipt: Receipt, request: ProofRequest)
    requires Synthetic.SimulatesConflict(request.payload)
    ensures var o := ProcessReceipt(h, TestEngine(pe), clock, receipt, request);
            && o.receipt.status == NonProvable
            && o.receipt.nonProvable == Some(NonProvableDetail(EvidenceConflict,
                 "Conflicting evidence entries detected: " + Synthetic.ConflictMarker))
            && StatementStage !in o.trace && ProverStage !in o.trace
  {
    EveryVenueServed(pe, request.venue);
  }

  /** The acknowledgement the synthetic adapter gives the request. */
  function SyntheticAck(h: Hashing.Hasher, clock: TaskClock, request: ProofRequest): ExecutionAck {
    Synthetic.Acknowledge(h, request.venue, request, clock.ackAt).value
  }

  /** The bundle the synthetic adapter collects for the request. */
  function SyntheticBundle(h: Hashing.Hasher, clock: TaskClock, request: ProofRequest): EvidenceBundle {
    Synthetic.CollectEvidence(h, request.venue, request, SyntheticAck(h, clock, request), clock.collection).value
  }

  /** The test engine always gets past the adapter stages and hands the
      synthetic bundle to the policy. */
  lemma SyntheticStages(h: Hashing.Hasher, pe: Policy.PolicyEngine, clock: TaskClock, receipt: Receipt, request: ProofRequest)
    ensures AdapterIndex(TestEngine(pe).adapters, request.venue).Some?
    ensures var e := TestEngine(pe);
            var a := e.adapters[AdapterIndex(e.adapters, request.venue).value];
            var p := RunPolicyStages(h, e, clock, receipt, request, a, SyntheticAck(h, clock, request),
                                     SyntheticBundle(h, clock, request));
            && a.SyntheticAdapter?
            && ProcessReceipt(h, e, clock, receipt, request) == TaskResult(p.receipt, [AckStage, EvidenceStage] + p.trace)
  {
    EveryVenueServed(pe, request.venue);
  }

  /** Without an execution reference the synthetic bundle lacks every
      execution tag, so a taxonomy requiring one rejects it as missing evidence. */
  lemma MissingExecutionTagRejected(h: Hashing.Hasher, pe: Policy.PolicyEngine, clock: TaskClock,
                                    request: ProofRequest, tag: string)
    requires request.claimType == TradeExecuted && request.executionRef.None?
    requires !Synthetic.SimulatesConflict(request.payload)
    requires tag in Synthetic.ExecutionTags && tag in Policy.RequiredTagsForClaim(pe, TradeExecuted)
    ensures var d := Policy.Evaluate(pe, request.venue, TradeExecuted, SyntheticBundle(h, clock, request));
            !d.ok && d.reason == Some(EvidenceMissing)
  {
    var bundle := SyntheticBundle(h, clock, request);
    assert tag !in bundle.observedTags;
    assert !Policy.TagsPresent(Policy.RequiredTagsForClaim(pe, TradeExecuted), bundle.observedTags);
  }

  /** A TRADE_EXECUTED request without an execution reference ends
      EVIDENCE_MISSING, and is never proved, under any taxonomy that requires
      an execution tag for that claim type. */
  lemma MissingExecutionRefNonProvable(h: Hashing.Hasher, pe: Policy.PolicyEngine, clock: TaskClock,
                                       receipt: Receipt, request: ProofRequest, tag: string)
    requires request.claimType == TradeExecuted && request.executionRef.None?
    requires !Synthetic.SimulatesConflict(request.payload)
    requires tag in Synthetic.ExecutionTags && tag in Policy.RequiredTagsForClaim(pe, TradeExecuted)
    ensures var o := ProcessReceipt(h, TestEngine(pe), clock, receipt, request);
            && o.receipt.status == NonProvable
            && o.receipt.nonProvable.value.reasonCode == EvidenceMissing
            && ProverStage !in o.trace
  {
    var e := TestEngine(pe);
    SyntheticStages(h, pe, clock, receipt, request);
    MissingExecutionTagRejected(h, pe, clock, request, tag);
    var a := e.adapters[AdapterIndex(e.adapters, request.venue).value];
    PolicyRejectionStopsPipeline(h, e, clock, receipt, request, a, SyntheticAck(h, clock, request),
                                 SyntheticBundle(h, clock, request));
  }

  /** The synthetic ORDER_PLACED bundle passes the policy when the taxonomy
      asks only for order tags the payload does not strip, and the venue's
      preference list is empty or names one of the two kinds of source the
      adapter reports. */
  lemma OrderPlacedAccepted(h: Hashing.Hasher, pe: Policy.PolicyEngine, clock: TaskClock, request: ProofRequest)
    requires request.claimType == OrderPlaced
    requires !Synthetic.SimulatesConflict(request.payload)
    requires forall t :: t in Policy.RequiredTagsForClaim(pe, OrderPlaced) ==>
               t in Synthetic.OrderTags && t !in Synthetic.RemovedTags(request.payload)
    requires var preferred := Policy.PreferredSources(pe, request.venue, OrderPlaced);
             || preferred == []
             || Synthetic.AcceptanceSourceKind(request.venue) in preferred
             || Synthetic.ShadowSourceKind in preferred
    ensures Policy.Evaluate(pe, request.venue, OrderPlaced, SyntheticBundle(h, clock, request)).ok
  {
    var bundle := SyntheticBundle(h, clock, request);
    var preferred := Policy.PreferredSources(pe, request.venue, OrderPlaced);
    if preferred != [] {
      if Synthetic.AcceptanceSourceKind(request.venue) in preferred {
        var i :| 0 <= i < |preferred| && preferred[i] == Synthetic.AcceptanceSourceKind(request.venue);
        assert preferred[i] == bundle.items[0].sourceKind;
      } else {
        var i :| 0 <= i < |preferred| && preferred[i] == Synthetic.ShadowSourceKind;
        assert preferred[i] == bundle.items[1].sourceKind;
      }
    }
  }

  /** Under those policy conditions an ORDER_PLACED request without a
      simulated conflict ends PROVED. */
  lemma OrderPlacedProves(h: Hashing.Hasher, pe: Policy.PolicyEngine, clock: TaskClock,
                          receipt: Receipt, request: ProofRequest)
    requires MadeFrom(receipt, request)
    requires request.claimType == OrderPlaced
    requires !Synthetic.SimulatesConflict(request.payload)
    requires forall t :: t in Policy.RequiredTagsForClaim(pe, OrderPlaced) ==>
               t in Synthetic.OrderTags && t !in Synthetic.RemovedTags(request.payload)
    requires var preferred := Policy.PreferredSources(pe, request.venue, OrderPlaced);
             || preferred == []
             || Synthetic.AcceptanceSourceKind(request.venue) in preferred
             || Synthetic.ShadowSourceKind in preferred
    ensures ProcessReceipt(h, TestEngine(pe), clock, receipt, request).receipt.status == Proved
  {
    var e := TestEngine(pe);
    SyntheticStages(h, pe, clock, receipt, request);
    OrderPlacedAccepted(h, pe, clock, request);
    var a := e.adapters[AdapterIndex(e.adapters, request.venue).value];
    AcceptedBundleProves(h, e, clock, receipt, request, a, SyntheticAck(h, clock, request),
                         SyntheticBundle(h, clock, request));
  }
}

=== FILE: sorting.dfy ===
/** Lexicographic order on strings (Rust's `Ord for String`, which compares
    UTF-8 bytes and therefore code points), a sort over it, and the facts that
    make "sort, then hash" independent of the input order. */
module Sorting {

  /** `a` sorts no later than `b`. */
  predicate LexLe(a: string, b: string)
    decreases |a|
  {
    |a| == 0 || (|b| > 0 && (a[0] < b[0] || (a[0] == b[0] && LexLe(a[1..], b[1..]))))
  }

  lemma {:induction false} LexLeReflexive(a: string)
    ensures LexLe(a, a)
    decreases |a|
  {
    if |a| > 0 {
      LexLeReflexive(a[1..]);
    }
  }

  lemma {:induction false} LexLeTotal(a: string, b: string)
    ensures LexLe(a, b) || LexLe(b, a)
    decreases |a|
  {
    if |a| > 0 && |b| > 0 && a[0] == b[0] {
      LexLeTotal(a[1..], b[1..]);
    }
  }

  lemma {:induction false} LexLeAntisymmetric(a: string, b: string)
    requires LexLe(a, b) && LexLe(b, a)
    ensures a == b
    decreases |a|
  {
    if |a| > 0 {
      LexLeAntisymmetric(a[1..], b[1..]);
      assert a == [a[0]] + a[1..];
      assert b == [b[0]] + b[1..];
    }
  }

  lemma {:induction false} LexLeTransitive(a: string, b: string, c: string)
    requires LexLe(a, b) && LexLe(b, c)
    ensures LexLe(a, c)
    decreases |a|
  {
    if |a| > 0 && a[0] == b[0] && b[0] == c[0] {
      LexLeTransitive(a[1..], b[1..], c[1..]);
    }
  }

  predicate Sorted(s: seq<string>) {
    forall i, j :: 0 <= i < j < |s| ==> LexLe(s[i], s[j])
  }

  /** Putting `y` in front of a sorted sequence whose elements are `x` and
      the elements of `s`, all no smaller than `y`, keeps it sorted. */
  lemma PrependKeepsSorted(y: string, s: seq<string>, x: string, rest: seq<string>)
    requires forall j :: 0 <= j < |s| ==> LexLe(y, s[j])
    requires LexLe(y, x)
    requires multiset(rest) == multiset(s) + multiset{x}
    requires Sorted(rest)
    ensures Sorted([y] + rest)
  {
    forall k | 0 <= k < |rest|
      ensures LexLe(y, rest[k])
    {
      assert rest[k] in multiset(rest);
      if rest[k] != x {
        assert rest[k] in multiset(s);
        var j :| 0 <= j < |s| && s[j] == rest[k];
      }
    }
    var r := [y] + rest;
    forall i, j | 0 <= i < j < |r|
      ensures LexLe(r[i], r[j])
    {
      if i > 0 {
        assert r[i] == rest[i - 1] && r[j] == rest[j - 1];
      } else {
        assert r[j] == rest[j - 1];
      }
    }
  }

  /** A string no later than the head of a sorted sequence can lead it. */
  lemma SortedCons(x: string, s: seq<string>)
    requires Sorted(s) && |s| > 0 && LexLe(x, s[0])
    ensures Sorted([x] + s)
  {
    var r := [x] + s;
    forall i, j | 0 <= i < j < |r|
      ensures LexLe(r[i], r[j])
    {
      if i == 0 && j > 1 {
        LexLeTransitive(x, s[0], s[j - 1]);
      }
    }
  }

  /** Inserts `x` into a sorted sequence. */
  function Insert(x: string, s: seq<string>): (r: seq<string>)
    requires Sorted(s)
    ensures Sorted(r)
    ensures multiset(r) == multiset(s) + multiset{x}
  {
    if |s| == 0 then
      [x]
    else if LexLe(x, s[0]) then
      SortedCons(x, s);
      [x] + s
    else
      LexLeTotal(x, s[0]);
      var rest := Insert(x, s[1..]);
      PrependKeepsSorted(s[0], s[1..], x, rest);
      assert s == [s[0]] + s[1..];
      [s[0]] + rest
  }

  /** Insertion sort: a sorted permutation of `s`. */
  function Sort(s: seq<string>): (r: seq<string>)
    ensures Sorted(r)
    ensures multiset(r) == multiset(s)
  {
    if |s| == 0 then
      []
    else
      assert s == [s[0]] + s[1..];
      Insert(s[0], Sort(s[1..]))
  }

  /** The heads of two sorted arrangements of one multiset coincide. */
  lemma SortedHeadsAgree(a: seq<string>, b: seq<string>)
    requires Sorted(a) && Sorted(b) && |a| > 0 && |b| > 0
    requires multiset(a) == multiset(b)
    ensures a[0] == b[0]
  {
    assert a[0] in multiset(b);
    var j :| 0 <= j < |b| && b[j] == a[0];
    assert b[0] in multiset(a);
    var i :| 0 <= i < |a| && a[i] == b[0];
    if j == 0 {
      LexLeReflexive(b[0]);
    }
    if i == 0 {
      LexLeReflexive(a[0]);
    }
    LexLeAntisymmetric(a[0], b[0]);
  }

  /** Removing equal heads from two sequences with one multiset leaves one multiset. */
  lemma TailsAgree(a: seq<string>, b: seq<string>)
    requires |a| > 0 && |b| > 0 && a[0] == b[0]
    requires multiset(a) == multiset(b)
    ensures multiset(a[1..]) == multiset(b[1..])
  {
    assert a == [a[0]] + a[1..];
    assert b == [b[0]] + b[1..];
    assert multiset(a[1..]) == multiset(a) - multiset{a[0]};
    assert multiset(b[1..]) == multiset(b) - multiset{b[0]};
  }

  /** There is only one sorted arrangement of a multiset of strings. */
  lemma {:induction false} SortedUnique(a: seq<string>, b: seq<string>)
    requires Sorted(a) && Sorted(b)
    requires multiset(a) == multiset(b)
    ensures a == b
    decreases |a|
  {
    assert |b| == |multiset(b)| == |multiset(a)| == |a|;
    if |a| > 0 {
      SortedHeadsAgree(a, b);
      TailsAgree(a, b);
      SortedUnique(a[1..], b[1..]);
      assert a == [a[0]] + a[1..];
      assert b == [b[0]] + b[1..];
    }
  }

  /** Sorting forgets the order of its input: two sequences holding the same
      multiset of strings sort to the same sequence. */
  lemma SortPermutationInvariant(a: seq<string>, b: seq<string>)
    requires multiset(a) == multiset(b)
    ensures Sort(a) == Sort(b)
  {
    SortedUnique(Sort(a), Sort(b));
  }

  predicate NoDuplicates(s: seq<string>) {
    forall i, j :: 0 <= i < j < |s| ==> s[i] != s[j]
  }

  /** The distinct elements of `s`, each kept once, in first-occurrence order.
      Stands for the iteration order of a `HashSet`, which is arbitrary: the
      lemmas below show that nothing downstream of a sort depends on it. */
  function Dedup(s: seq<string>): (r: seq<string>)
    ensures NoDuplicates(r)
    ensures forall x :: x in r <==> x in s
    decreases |s|
  {
    if |s| == 0 then
      []
    else
      var r := Dedup(s[..|s| - 1]);
      assert s == s[..|s| - 1] + [s[|s| - 1]];
      if s[|s| - 1] in r then r else r + [s[|s| - 1]]
  }

  /** In a sequence without duplicates every member occurs exactly once. */
  lemma {:induction false} NoDuplicatesCount(s: seq<string>, x: string)
    requires NoDuplicates(s)
    ensures multiset(s)[x] == if x in s then 1 else 0
    decreases |s|
  {
    if |s| > 0 {
      assert s == [s[0]] + s[1..];
      NoDuplicatesCount(s[1..], x);
      if x == s[0] {
        assert x !in s[1..];
      }
    }
  }

  /** Duplicate-free sequences with the same members hold the same multiset. */
  lemma SameMembersSameMultiset(a: seq<string>, b: seq<string>)
    requires NoDuplicates(a) && NoDuplicates(b)
    requires forall x :: x in a <==> x in b
    ensures multiset(a) == multiset(b)
  {
    forall x
      ensures multiset(a)[x] == multiset(b)[x]
    {
      NoDuplicatesCount(a, x);
      NoDuplicatesCount(b, x);
    }
  }

  /** A string that occurs at two positions is counted at least twice. */
  lemma TwiceCounted(r: seq<string>, i: int, j: int)
    requires 0 <= i < j < |r| && r[i] == r[j]
    ensures multiset(r)[r[i]] >= 2
  {
    assert r == r[..j] + [r[j]] + r[j + 1..];
    assert r[i] in r[..j];
    assert multiset(r[..j])[r[i]] >= 1;
  }

  lemma SortKeepsNoDuplicates(d: seq<string>)
    requires NoDuplicates(d)
    ensures NoDuplicates(Sort(d))
  {
    var r := Sort(d);
    forall i, j | 0 <= i < j < |r|
      ensures r[i] != r[j]
    {
      if r[i] == r[j] {
        NoDuplicatesCount(d, r[i]);
        TwiceCounted(r, i, j);
      }
    }
  }

  /** The sorted list of the distinct members of `s`: what collecting into a
      `HashSet`, back into a `Vec` and sorting yields. */
  function SortedDistinct(s: seq<string>): (r: seq<string>)
    ensures Sorted(r) && NoDuplicates(r)
    ensures forall x :: x in r <==> x in s
  {
    var d := Dedup(s);
    SortKeepsNoDuplicates(d);
    assert forall x :: x in Sort(d) <==> x in multiset(d);
    Sort(d)
  }

  /** The sorted distinct list depends only on which strings occur, not on
      their order or on how often they repeat. */
  lemma SortedDistinctMembersOnly(a: seq<string>, b: seq<string>)
    requires forall x :: x in a <==> x in b
    ensures SortedDistinct(a) == SortedDistinct(b)
  {
    SameMembersSameMultiset(SortedDistinct(a), SortedDistinct(b));
    SortedUnique(SortedDistinct(a), SortedDistinct(b));
  }
}

=== FILE: store.dfy ===
/** The receipt store of src/engine.rs as a value: `submit` writes a pending
    receipt, the background task overwrites it with its terminal form, and
    `get_receipt` reads a snapshot. Task spawning, locking and joining are
    not modelled; running the receipt task is an explicit step. */
module Store {
  import opened Wrappers
  import Hashing
  import opened Models
  import Engine

  type ReceiptStore = map<string, Receipt>

  /** `submit`: stores a pending receipt under the fresh id and returns the id. */
  function Submit(h: Hashing.Hasher, e: Engine.ReceiptEngine, store: ReceiptStore, request: ProofRequest,
                  receiptId: string, now: string): (r: (ReceiptStore, string))
    ensures r.1 == receiptId && r.0.Keys == store.Keys + {receiptId}
    ensures r.0[receiptId].status == Pending && r.0[receiptId].receiptId == receiptId
    ensures r.0[receiptId].subject == Subject(request.venue, request.accountRef, request.orderRef, request.executionRef)
    ensures Engine.MadeFrom(r.0[receiptId], request)
    ensures r.0[receiptId] == Engine.NewPendingReceipt(h, e, request, receiptId, now)
    ensures forall k :: k in store && k != receiptId ==> r.0[k] == store[k]
  {
    (store[receiptId := Engine.NewPendingReceipt(h, e, request, receiptId, now)], receiptId)
  }

  /** `get_receipt`: a copy of the stored receipt, if any. */
  function GetReceipt(store: ReceiptStore, receiptId: string): (r: Option<Receipt>)
    ensures r.Some? <==> receiptId in store
    ensures r.Some? ==> r.value == store[receiptId]
  {
    if receiptId in store then Some(store[receiptId]) else None
  }

  /** `process_receipt_task`: does nothing when the id is unknown, otherwise
      replaces that one receipt by its terminal form. */
  function RunTask(h: Hashing.Hasher, e: Engine.ReceiptEngine, clock: Engine.TaskClock, store: ReceiptStore,
                   receiptId: string, request: ProofRequest): (s: ReceiptStore)
    ensures receiptId !in store ==> s == store
    ensures s.Keys == store.Keys
    ensures receiptId in store ==> Engine.TerminalWrite(h, e, store[receiptId], s[receiptId])
    ensures receiptId in store ==> s[receiptId] == Engine.ProcessReceipt(h, e, clock, store[receiptId], request).receipt
    ensures forall k :: k in store && k != receiptId ==> s[k] == store[k]
  {
    if receiptId !in store then
      store
    else
      store[receiptId := Engine.ProcessReceipt(h, e, clock, store[receiptId], request).receipt]
  }

  /** Submitting and then running the receipt task leaves a terminal receipt under
      the returned id that keeps the request's subject, and with the shipped
      prover it is never rejected for a proof failure. */
  lemma SubmitThenRun(h: Hashing.Hasher, e: Engine.ReceiptEngine, clock: Engine.TaskClock, store: ReceiptStore,
                      request: ProofRequest, receiptId: string, now: string)
    ensures var (pending, id) := Submit(h, e, store, request, receiptId, now);
            var done := RunTask(h, e, clock, pending, id, request);
            && GetReceipt(done, id).Some?
            && var r := GetReceipt(done, id).value;
            && (r.status == Proved || r.status == NonProvable)
            && r.receiptId == id
            && r.subject == Subject(request.venue, request.accountRef, request.orderRef, request.executionRef)
            && r.timing.createdAt == now
            && (e.prover.Sp1Mvp? && r.status == NonProvable ==> r.nonProvable.value.reasonCode != ProofFailure)
  {
    var (pending, id) := Submit(h, e, store, request, receiptId, now);
    if e.prover.Sp1Mvp? {
      Engine.ShippedProverNeverFailsProof(h, e, clock, pending[id], request);
    }
  }
}

=== FILE: synthetic.dfy ===
/** The deterministic synthetic venue adapter of src/adapters/synthetic.rs.
    The timestamps it reads from the wall clock are parameters. */
module Synthetic {
  import opened Wrappers
  import Json
  import Hashing
  import opened Models

  /** The timestamps `now_iso` yields while one bundle is collected, in call
      order: the shadow item, the execution item, the finality observation. */
  datatype CollectionClock = CollectionClock(shadowAt: string, executionAt: string, finalityAt: string)

  const OrderTags: seq<string> := ["order_identity", "submission_timestamp", "venue_acceptance_artifact"]
  const ShadowTags: seq<string> := ["order_identity", "submission_timestamp"]
  const ExecutionTags: seq<string> := ["execution_identity", "execution_timestamp", "execution_artifact"]
  const ConflictMarker: string := "source_value_mismatch"
  const ShadowSourceKind: string := "venue_api_unsigned"

  /** The kind of source that attests acceptance on a venue. */
  function AcceptanceSourceKind(v: Venue): (r: string)
    ensures v == Hyperliquid <==> r == "venue_signed_attestation"
    ensures v != Hyperliquid <==> r == "canonical_chain_state"
  {
    match v
    case Hyperliquid => "venue_signed_attestation"
    case _ => "canonical_chain_state"
  }

  /** The JSON value whose hash is the acknowledgement artifact hash. */
  function AckArtifact(venue: Venue, orderRef: string, acceptedAt: string): Json.Value {
    Json.Object(map[
      "venue" := Json.String(VenueSlug(venue)),
      "order_ref" := Json.String(orderRef),
      "accepted_at" := Json.String(acceptedAt),
      "kind" := Json.String("acknowledgement")])
  }

  /** The acknowledgement artifact reference: `<slug>://ack/<order>`. */
  function AckRef(venue: Venue, orderRef: string): string {
    VenueSlug(venue) + "://ack/" + orderRef
  }

  /** `acknowledge`: always accepts, echoing the order reference. */
  function Acknowledge(h: Hashing.Hasher, venue: Venue, request: ProofRequest, acceptedAt: string): (r: Result<ExecutionAck, string>)
    ensures r.Ok? && r.value.accepted
    ensures r.value.venueOrderRef == request.orderRef
    ensures r.value.acceptanceArtifactRef == AckRef(venue, request.orderRef)
    ensures r.value.acceptanceArtifactHash == Hashing.HashJson(h, AckArtifact(venue, request.orderRef, acceptedAt))
    ensures r.value.acceptedAt == acceptedAt
  {
    Ok(ExecutionAck(
      true,
      request.orderRef,
      AckRef(venue, request.orderRef),
      Hashing.HashJson(h, AckArtifact(venue, request.orderRef, acceptedAt)),
      acceptedAt))
  }

  /** No venue slug contains a colon. */
  lemma SlugHasNoColon(v: Venue, i: int)
    requires 0 <= i < |VenueSlug(v)|
    ensures VenueSlug(v)[i] != ':'
  {
  }

  /** The acknowledgement reference names its venue and its order: two
      acknowledgements with the same reference are for the same venue and
      the same order reference. */
  lemma AckRefIdentifiesOrder(v1: Venue, v2: Venue, o1: string, o2: string)
    requires AckRef(v1, o1) == AckRef(v2, o2)
    ensures v1 == v2 && o1 == o2
  {
    var s1, s2 := VenueSlug(v1), VenueSlug(v2);
    var r := AckRef(v1, o1);
    assert r == s1 + ("://ack/" + o1);
    assert r == s2 + ("://ack/" + o2);
    if |s1| < |s2| {
      assert r[|s1|] == ':';
      SlugHasNoColon(v2, |s1|);
      assert false;
    } else if |s2| < |s1| {
      assert r[|s2|] == ':';
      SlugHasNoColon(v1, |s2|);
      assert false;
    } else {
      assert s1 == r[..|s1|] == s2;
      assert ParseVenue(s1) == Some(v1);
      assert o1 == r[|s1| + 7..] == o2;
    }
  }

  /** `payload.simulate_conflict`, read as a boolean, false when absent or not a boolean. */
  function SimulatesConflict(payload: Json.Value): (r: bool)
    ensures r <==> payload.Get("simulate_conflict") == Some(Json.Bool(true))
  {
    match payload.Get("simulate_conflict")
    case Some(Bool(b)) => b
    case _ => false
  }

  /** The string entries of `payload.missing_tags`, none when it is absent or
      not an array. */
  function RemovedTags(payload: Json.Value): (r: set<string>)
    ensures match payload.Get("missing_tags")
            case Some(Array(vs)) => forall t :: t in r <==> Json.String(t) in vs
            case _ => r == {}
  {
    match payload.Get("missing_tags")
    case Some(Array(vs)) => set t | t in Json.Strings(vs)
    case _ => {}
  }

  /** The request claims an execution and names it. */
  predicate ReportsExecution(request: ProofRequest) {
    request.claimType == TradeExecuted && request.executionRef.Some?
  }

  function PrimaryItem(venue: Venue, ack: ExecutionAck): EvidenceItem {
    EvidenceItem(VenueSlug(venue) + "-primary", AcceptanceSourceKind(venue),
                 ack.acceptanceArtifactRef, ack.acceptanceArtifactHash, ack.acceptedAt, OrderTags)
  }

  function ShadowArtifact(venue: Venue, orderRef: string): Json.Value {
    Json.Object(map["venue" := Json.String(VenueSlug(venue)), "api_order_ref" := Json.String(orderRef)])
  }

  function ShadowItem(h: Hashing.Hasher, venue: Venue, orderRef: string, observedAt: string): EvidenceItem {
    EvidenceItem(VenueSlug(venue) + "-api", ShadowSourceKind,
                 VenueSlug(venue) + "://api/order/" + orderRef,
                 Hashing.HashJson(h, ShadowArtifact(venue, orderRef)), observedAt, ShadowTags)
  }

  function ExecutionArtifact(venue: Venue, orderRef: string, executionRef: string): Json.Value {
    Json.Object(map[
      "venue" := Json.String(VenueSlug(venue)),
      "order_ref" := Json.String(orderRef),
      "execution_ref" := Json.String(executionRef)])
  }

  function ExecutionItem(h: Hashing.Hasher, venue: Venue, orderRef: string, executionRef: string, observedAt: string): EvidenceItem {
    EvidenceItem(VenueSlug(venue) + "-execution", AcceptanceSourceKind(venue),
                 VenueSlug(venue) + "://execution/" + executionRef,
                 Hashing.HashJson(h, ExecutionArtifact(venue, orderRef, executionRef)), observedAt, ExecutionTags)
  }

  /** `collect_evidence`: a primary and a shadow item always, an execution
      item when an execution is reported; the conflict and the removed tags
      are steered by the payload. */
  function CollectEvidence(h: Hashing.Hasher, venue: Venue, request: ProofRequest, ack: ExecutionAck, clock: CollectionClock)
    : (r: Result<EvidenceBundle, string>)
    ensures r.Ok?
    ensures SimulatesConflict(request.payload) ==> r.value.conflicts == [ConflictMarker]
    ensures !SimulatesConflict(request.payload) ==> r.value.conflicts == []
    ensures |r.value.items| == (if ReportsExecution(request) then 3 else 2)
    ensures var primary := r.value.items[0];
              && primary.sourceKind == AcceptanceSourceKind(venue)
              && primary.artifactRef == ack.acceptanceArtifactRef
              && primary.artifactHash == ack.acceptanceArtifactHash
              && primary.observedAt == ack.acceptedAt
              && primary.tags == OrderTags
    ensures r.value.items[1].sourceKind == ShadowSourceKind && r.value.items[1].tags == ShadowTags
    ensures r.value.items[0] == PrimaryItem(venue, ack)
    ensures r.value.items[1] == ShadowItem(h, venue, request.orderRef, clock.shadowAt)
    ensures ReportsExecution(request) ==>
              r.value.items[2] == ExecutionItem(h, venue, request.orderRef, request.executionRef.value, clock.executionAt)
    ensures ReportsExecution(request) ==>
              && r.value.items[2].sourceKind == AcceptanceSourceKind(venue)
              && r.value.items[2].artifactRef == VenueSlug(venue) + "://execution/" + request.executionRef.value
              && r.value.items[2].tags == ExecutionTags
              && r.value.finalityObservedAt == Some(clock.finalityAt)
    ensures !ReportsExecution(request) ==> r.value.finalityObservedAt == None
    ensures forall t :: t in r.value.observedTags <==>
              && (t in OrderTags || (ReportsExecution(request) && t in ExecutionTags))
              && t !in RemovedTags(request.payload)
  {
    var conflicts := if SimulatesConflict(request.payload) then [ConflictMarker] else [];
    var base := [PrimaryItem(venue, ack), ShadowItem(h, venue, request.orderRef, clock.shadowAt)];
    var tags := set t | t in OrderTags;
    if ReportsExecution(request) then
      var exec := ExecutionItem(h, venue, request.orderRef, request.executionRef.value, clock.executionAt);
      var observed := (tags + set t | t in ExecutionTags) - RemovedTags(request.payload);
      Ok(EvidenceBundle(base + [exec], observed, conflicts, Some(clock.finalityAt)))
    else
      Ok(EvidenceBundle(base, tags - RemovedTags(request.payload), conflicts, None))
  }

  /** The items and the finality observation do not depend on the payload:
      removing tags and simulating a conflict only touch the observed tag set
      and the conflict list. */
  lemma ItemsIgnorePayload(h: Hashing.Hasher, venue: Venue, request: ProofRequest, ack: ExecutionAck,
                           clock: CollectionClock, payload: Json.Value)
    ensures var b1 := CollectEvidence(h, venue, request, ack, clock).value;
            var b2 := CollectEvidence(h, venue, request.(payload := payload), ack, clock).value;
            b1.items == b2.items && b1.finalityObservedAt == b2.finalityObservedAt
  {
  }
}

=== FILE: verifier.dfy ===
/** `OffchainVerifier::verify` of src/verifier.rs: a pure consistency check of
    a receipt's recorded public-input hash. */
module Verifier {
  import Json
  import Hashing
  import opened Models

  /** The public inputs the verifier recomputes from the receipt itself:
      claim hash, evidence root, venue slug and claim type name. */
  function ExpectedPublicInputs(r: Receipt): Json.Value {
    Json.Object(map[
      "claim_hash" := Json.String(r.claim.claimHash),
      "evidence_root" := Json.String(r.provenance.evidenceRoot),
      "venue" := Json.String(VenueSlug(r.subject.venue)),
      "claim_type" := Json.String(ClaimTypeName(r.claim.claimType))])
  }

  /** Accepts only a PROVED receipt with a real backend whose recorded
      public-input hash matches the recomputed one. */
  function Verify(h: Hashing.Hasher, r: Receipt): (ok: bool)
    ensures r.status != Proved ==> !ok
    ensures r.proof.backend == NoBackend ==> !ok
    ensures r.status == Proved && r.proof.backend != NoBackend ==>
              (ok <==> Hashing.HashJson(h, ExpectedPublicInputs(r)) == r.proof.publicInputsHash)
  {
    if r.status != Proved then false
    else if r.proof.backend == NoBackend then false
    else Hashing.HashJson(h, ExpectedPublicInputs(r)) == r.proof.publicInputsHash
  }
}

=== FILE: workloads.dfy ===
/** The workload checks of src/bin/conformance.rs and the deterministic
    per-scenario digests. */
module Workloads {
  import opened Wrappers
  import opened Json
  import Hashing
  import opened Models
  import Sorting

  // ---------------------------------------------------------------------------
  // Workloads and digests

  /** The string `key` of an object, or `dflt`. */
  function StrOr(v: Value, key: string, dflt: string): string {
    match v.Get(key)
    case Some(String(s)) => s
    case _ => dflt
  }

  /** The scenario's `id`. */
  function ScenarioId(scenario: Value): (r: Result<string, string>)
    ensures r.Ok? <==> scenario.Get("id").Some? && scenario.Get("id").value.String?
    ensures r.Ok? ==> r.value == scenario.Get("id").value.str
    ensures r.Err? ==> r.error == "workloads: scenario missing id"
  {
    match scenario.Get("id")
    case Some(String(id)) => Ok(id)
    case _ => Err("workloads: scenario missing id")
  }

  /** The tags the taxonomy requires for a claim type, when it names it. */
  function RequiredTagSet(claimTypes: map<string, Value>, claimType: string): (r: Option<set<string>>)
    ensures r.Some? <==> claimType in claimTypes
    ensures r.Some? ==> forall t :: t in r.value <==>
              t in StringsAt(claimTypes[claimType], ["required_evidence_tags_all"])
  {
    if claimType in claimTypes then
      Some(set t | t in StringsAt(claimTypes[claimType], ["required_evidence_tags_all"]))
    else
      None
  }

  /** The JSON value a scenario's digest is taken over. The profile enters
      deduplicated and sorted. */
  function DigestInput(venue: string, claimType: string, actionTemplate: string, profile: seq<string>,
                       payloadBytesTarget: nat): Value {
    Object(map[
      "venue" := String(venue),
      "claim_type" := String(claimType),
      "action_template" := String(actionTemplate),
      "evidence_profile" := StringArray(Sorting.SortedDistinct(profile)),
      "payload_bytes_target" := Number(payloadBytesTarget)])
  }

  /** The string entries of the scenario's `evidence_profile`. */
  function ProfileOf(s: Value): seq<string> {
    match s.Get("evidence_profile")
    case Some(Array(arr)) => Strings(arr)
    case _ => []
  }

  /** `payload_bytes_target` as a 64-bit unsigned integer, 0 otherwise. */
  function PayloadBytesTarget(s: Value): nat {
    match s.Get("payload_bytes_target")
    case Some(v) => v.AsU64().GetOr(0)
    case None => 0
  }

  /** The digest input of the scenario, read with defaults. */
  function ScenarioDigestInput(s: Value): Value {
    DigestInput(StrOr(s, "venue", ""), StrOr(s, "claim_type", ""), StrOr(s, "action_template", ""),
                ProfileOf(s), PayloadBytesTarget(s))
  }

  /** `sha256_json`: plain lowercase hex of the SHA-256 of the JSON text
      (no "0x"); fails when serialisation fails. */
  function Sha256Json(h: Hashing.Hasher, v: Value): (r: Result<string, string>)
    ensures r.Ok? <==> h.serialize(v).Some?
    ensures r.Ok? ==> && |r.value| == 64
                      && (forall i :: 0 <= i < 64 ==> Hashing.IsLowerHex(r.value[i]))
                      && Hashing.HexDecode(r.value) == Some(h.sha256(h.serialize(v).value))
  {
    match h.serialize(v)
    case Some(text) =>
      Hashing.HexRoundTrip(h.sha256(text));
      Ok(Hashing.HexEncode(h.sha256(text)))
    case None => Err("workloads: digest input could not be serialised")
  }

  /** The scenario names a known venue and a known claim type. */
  predicate KindsKnown(s: Value) {
    && s.Get("venue").Some? && s.Get("venue").value.String? && ParseVenue(s.Get("venue").value.str).Some?
    && s.Get("claim_type").Some? && s.Get("claim_type").value.String?
    && ParseClaimType(s.Get("claim_type").value.str).Some?
  }

  /** The scenario has a profile array covering every tag the taxonomy
      requires for its claim type, which the taxonomy names. */
  predicate ProfileCovers(claimTypes: map<string, Value>, s: Value) {
    var claimType := StrOr(s, "claim_type", "");
    && s.Get("evidence_profile").Some? && s.Get("evidence_profile").value.Array?
    && claimType in claimTypes
    && forall t :: t in StringsAt(claimTypes[claimType], ["required_evidence_tags_all"]) ==>
                   t in Strings(s.Get("evidence_profile").value.elems)
  }

  /** A scenario the validator admits. */
  predicate ScenarioAdmissible(claimTypes: map<string, Value>, s: Value) {
    KindsKnown(s) && ProfileCovers(claimTypes, s)
  }

  /** The profile checks and the digest of a scenario whose venue and claim
      type are strings. */
  function CheckProfile(h: Hashing.Hasher, claimTypes: map<string, Value>, id: string, s: Value): (r: Result<string, string>)
    ensures r.Ok? ==> ProfileCovers(claimTypes, s)
    ensures ProfileCovers(claimTypes, s) ==> r == Sha256Json(h, ScenarioDigestInput(s))
  {
    var claimType := StrOr(s, "claim_type", "");
    match s.Get("evidence_profile")
    case Some(Array(arr)) =>
      (match RequiredTagSet(claimTypes, claimType)
       case None => Err("workloads: unknown claim type " + claimType)
       case Some(required) =>
         if !(forall t :: t in required ==> t in Strings(arr)) then
           Err("workloads: scenario " + id + " missing required evidence tags for " + claimType)
         else
           Sha256Json(h, ScenarioDigestInput(s)))
    case _ => Err("workloads: scenario " + id + " missing evidence_profile")
  }

  /** The checks on one scenario after its id, in the validator's order, and
      its digest. */
  function CheckScenario(h: Hashing.Hasher, claimTypes: map<string, Value>, id: string, s: Value): Result<string, string> {
    match s.Get("venue")
    case Some(String(venue)) =>
      if ParseVenue(venue).None? then
        Err("workloads: unsupported venue " + venue)
      else
        (match s.Get("claim_type")
         case Some(String(claimType)) =>
           if ParseClaimType(claimType).None? then
             Err("workloads: unsupported claim " + claimType)
           else
             CheckProfile(h, claimTypes, id, s)
         case _ => Err("workloads: scenario " + id + " missing claim_type"))
    case _ => Err("workloads: scenario " + id + " missing venue")
  }

  /** The scenario checks pass exactly on admissible scenarios whose digest
      input serialises, and then yield the digest of that input. */
  lemma CheckScenarioAdmits(h: Hashing.Hasher, claimTypes: map<string, Value>, id: string, s: Value)
    ensures CheckScenario(h, claimTypes, id, s).Ok? ==> ScenarioAdmissible(claimTypes, s)
    ensures ScenarioAdmissible(claimTypes, s) ==> CheckScenario(h, claimTypes, id, s) == Sha256Json(h, ScenarioDigestInput(s))
  {
  }

  /** Replacing the evidence profile leaves the other digest fields alone. */
  lemma OtherFieldsKept(fields: map<string, Value>, p1: seq<Value>, p2: seq<Value>)
    ensures var s1 := Object(fields["evidence_profile" := Array(p1)]);
            var s2 := Object(fields["evidence_profile" := Array(p2)]);
            && StrOr(s1, "venue", "") == StrOr(s2, "venue", "")
            && StrOr(s1, "claim_type", "") == StrOr(s2, "claim_type", "")
            && StrOr(s1, "action_template", "") == StrOr(s2, "action_template", "")
            && PayloadBytesTarget(s1) == PayloadBytesTarget(s2)
  {
    var s1 := Object(fields["evidence_profile" := Array(p1)]);
    var s2 := Object(fields["evidence_profile" := Array(p2)]);
    assert s1.Get("venue") == s2.Get("venue");
    assert s1.Get("claim_type") == s2.Get("claim_type");
    assert s1.Get("action_template") == s2.Get("action_template");
    assert s1.Get("payload_bytes_target") == s2.Get("payload_bytes_target");
  }

  /** Replacing a scenario's evidence profile by one with the same tags
      leaves its digest input unchanged. */
  lemma SameTagsSameDigestInput(fields: map<string, Value>, p1: seq<Value>, p2: seq<Value>)
    requires forall t :: String(t) in p1 <==> String(t) in p2
    ensures ScenarioDigestInput(Object(fields["evidence_profile" := Array(p1)]))
         == ScenarioDigestInput(Object(fields["evidence_profile" := Array(p2)]))
  {
    var s1 := Object(fields["evidence_profile" := Array(p1)]);
    var s2 := Object(fields["evidence_profile" := Array(p2)]);
    assert ProfileOf(s1) == Strings(p1) && ProfileOf(s2) == Strings(p2);
    Sorting.SortedDistinctMembersOnly(Strings(p1), Strings(p2));
    OtherFieldsKept(fields, p1, p2);
  }

  /** Replacing a scenario's evidence profile by one with the same tags
      admits it alike. */
  lemma SameTagsSameAdmission(claimTypes: map<string, Value>, fields: map<string, Value>, p1: seq<Value>, p2: seq<Value>)
    requires forall t :: String(t) in p1 <==> String(t) in p2
    ensures ScenarioAdmissible(claimTypes, Object(fields["evidence_profile" := Array(p1)]))
       <==> ScenarioAdmissible(claimTypes, Object(fields["evidence_profile" := Array(p2)]))
  {
    var s1 := Object(fields["evidence_profile" := Array(p1)]);
    var s2 := Object(fields["evidence_profile" := Array(p2)]);
    assert forall t :: t in Strings(p1) <==> t in Strings(p2);
    assert s1.Get("venue") == s2.Get("venue");
    assert s1.Get("claim_type") == s2.Get("claim_type");
    assert KindsKnown(s1) <==> KindsKnown(s2);
    assert ProfileCovers(claimTypes, s1) <==> ProfileCovers(claimTypes, s2);
  }

  /** The digest forgets the order and the repetitions of the evidence
      profile: two scenarios that differ only there, with the same tags,
      are admitted alike and get the same digest. */
  lemma DigestIgnoresProfileOrder(h: Hashing.Hasher, claimTypes: map<string, Value>, id: string,
                                  fields: map<string, Value>, p1: seq<Value>, p2: seq<Value>)
    requires forall t :: String(t) in p1 <==> String(t) in p2
    ensures var r1 := CheckScenario(h, claimTypes, id, Object(fields["evidence_profile" := Array(p1)]));
            var r2 := CheckScenario(h, claimTypes, id, Object(fields["evidence_profile" := Array(p2)]));
            (r1.Ok? <==> r2.Ok?) && (r1.Ok? ==> r1 == r2)
  {
    var s1 := Object(fields["evidence_profile" := Array(p1)]);
    var s2 := Object(fields["evidence_profile" := Array(p2)]);
    CheckScenarioAdmits(h, claimTypes, id, s1);
    CheckScenarioAdmits(h, claimTypes, id, s2);
    SameTagsSameAdmission(claimTypes, fields, p1, p2);
    SameTagsSameDigestInput(fields, p1, p2);
  }

  /** The per-scenario check the validator runs after the id checks. */
  function Checker(h: Hashing.Hasher, claimTypes: map<string, Value>): (string, Value) -> Result<string, string> {
    (id, s) => CheckScenario(h, claimTypes, id, s)
  }

  /** Every scenario has an id and passes `check`, and no id is used twice. */
  predicate ScenariosPass(check: (string, Value) -> Result<string, string>, ss: seq<Value>) {
    && (forall i :: 0 <= i < |ss| ==> ScenarioId(ss[i]).Ok? && check(ScenarioId(ss[i]).value, ss[i]).Ok?)
    && (forall i, j :: 0 <= i < j < |ss| ==> ScenarioId(ss[i]) != ScenarioId(ss[j]))
  }

  /** A workloads document the validator accepts: a non-empty scenario list,
      a taxonomy with claim types, every scenario with an id and admitted,
      and no id used twice. */
  predicate WorkloadsValid(h: Hashing.Hasher, workloads: Value, taxonomy: Value) {
    && workloads.Get("scenarios").Some? && workloads.Get("scenarios").value.Array?
    && |workloads.Get("scenarios").value.elems| > 0
    && taxonomy.Get("claim_types").Some? && taxonomy.Get("claim_types").value.Object?
    && ScenariosPass(Checker(h, taxonomy.Get("claim_types").value.fields), workloads.Get("scenarios").value.elems)
  }

  /** The loop of `validate_workloads_and_digests`, for any per-scenario
      check: one `(id, result)` pair per scenario, in input order, or the
      first error met. */
  method DigestScenarios(check: (string, Value) -> Result<string, string>, ss: seq<Value>)
    returns (r: Result<seq<(string, string)>, string>)
    ensures r.Ok? <==> ScenariosPass(check, ss)
    ensures r.Ok? ==>
              && |r.value| == |ss|
              && forall i :: 0 <= i < |ss| ==>
                   Ok(r.value[i].0) == ScenarioId(ss[i]) && check(r.value[i].0, ss[i]) == Ok(r.value[i].1)
    ensures r.Ok? ==> forall i, j :: 0 <= i < j < |r.value| ==> r.value[i].0 != r.value[j].0
  {
    var seen: set<string> := {};
    var digests: seq<(string, string)> := [];
    var i := 0;
    while i < |ss|
      invariant 0 <= i <= |ss| && |digests| == i
      invariant forall k :: 0 <= k < i ==>
                  ScenarioId(ss[k]) == Ok(digests[k].0) && check(digests[k].0, ss[k]) == Ok(digests[k].1)
      invariant forall a, b :: 0 <= a < b < i ==> digests[a].0 != digests[b].0
      invariant seen == set k | 0 <= k < i :: digests[k].0
    {
      var idResult := ScenarioId(ss[i]);
      if idResult.Err? {
        return Err(idResult.error);
      }
      var id := idResult.value;
      if id in seen {
        var k :| 0 <= k < i && digests[k].0 == id;
        assert ScenarioId(ss[k]) == ScenarioId(ss[i]);
        return Err("workloads: duplicate scenario id " + id);
      }
      var checked := check(id, ss[i]);
      if checked.Err? {
        return Err(checked.error);
      }
      digests := digests + [(id, checked.value)];
      seen := seen + {id};
      i := i + 1;
    }
    return Ok(digests);
  }

  /** `validate_workloads_and_digests`. */
  method ValidateWorkloadsAndDigests(h: Hashing.Hasher, workloads: Value, taxonomy: Value)
    returns (r: Result<seq<(string, string)>, string>)
    ensures r.Ok? <==> WorkloadsValid(h, workloads, taxonomy)
    ensures !(workloads.Get("scenarios").Some? && workloads.Get("scenarios").value.Array?
              && |workloads.Get("scenarios").value.elems| > 0) ==>
              r == Err("workloads: scenarios must be non-empty")
    ensures r.Ok? ==>
              var ss := workloads.Get("scenarios").value.elems;
              && |r.value| == |ss|
              && forall i :: 0 <= i < |ss| ==>
                   && Ok(r.value[i].0) == ScenarioId(ss[i])
                   && Ok(r.value[i].1) == Sha256Json(h, ScenarioDigestInput(ss[i]))
    ensures r.Ok? ==> forall i, j :: 0 <= i < j < |r.value| ==> r.value[i].0 != r.value[j].0
  {
    var scenarios := workloads.Get("scenarios");
    if !(scenarios.Some? && scenarios.value.Array? && |scenarios.value.elems| > 0) {
      return Err("workloads: scenarios must be non-empty");
    }
    var claimTypes := taxonomy.Get("claim_types");
    if !(claimTypes.Some? && claimTypes.value.Object?) {
      return Err("claim-taxonomy: missing claim_types");
    }
    var ss := scenarios.value.elems;
    var check := Checker(h, claimTypes.value.fields);
    r := DigestScenarios(check, ss);
    if r.Ok? {
      forall k | 0 <= k < |ss|
        ensures Ok(r.value[k].1) == Sha256Json(h, ScenarioDigestInput(ss[k]))
      {
        CheckScenarioAdmits(h, claimTypes.value.fields, r.value[k].0, ss[k]);
      }
    }
  }
}

=== FILE: wrappers.dfy ===
/** Option, Result and a pass/fail outcome: the model's stand-ins for Rust's
    `Option<T>`, `anyhow::Result<T>` and `Result<()>`. */
module Wrappers {

  datatype Option<+T> = None | Some(value: T) {

    /** The contained value, or `default` when absent (Rust's `unwrap_or`). */
    function GetOr(default: T): T {
      match this
      case Some(v) => v
      case None => default
    }
  }

  /** An operation that either yields a value or fails with an error message. */
  datatype Result<+T, +E> = Ok(value: T) | Err(error: E)

  /** A check that either passes or fails with an error message. */
  datatype Outcome<+E> = Pass | Fail(error: E)
}
